=== FILE: README.md ===
# tiny11-automated release detection and direct download, in Dafny

This project models the decision logic of two scripts. It leaves out their
I/O.

- **Release detector** (`scripts/release_detector.py`), modelled in
  `releases.dfy`, `tracking.dfy` and `matrix.dfy`:
  - the title-to-version heuristic `_extract_version`;
  - the build-listing filter of `_check_uupdump`;
  - one detection cycle of `detect_new_releases`, with the tracking store
    that `_load_tracked` and `_save_tracked` maintain;
  - the build-matrix expansion of `generate_matrix`.
- **Direct downloader** (`scripts/microsoft_direct_downloader.py`),
  modelled in `user_agents.dfy` and `direct_download.dfy`:
  - the process-wide user-agent rotator, set up in `__init__` and advanced
    by `_get_next_user_agent`;
  - the acceptance of the extracted link in `get_windows11_link`;
  - the record that `get_all_versions` builds from the link. Its two
    regular expressions are written as explicit leftmost scans.

`text.dfy` holds two shared modules:
- `Wrappers` is an `Option` type.
- `Text` has the string helpers: substring test, ASCII digits and
  lower-casing, and character replacement and removal.

Everything is a pure function over immutable datatypes. The environment
becomes parameters:
- the current time is an integer number of seconds;
- the decoded listing response is a value that may also be unreadable;
- the tracking file is a value: missing, invalid JSON or decoded;
- the outcome of the browser session is a value;
- each `random.shuffle` is a sequence constrained only to be a permutation
  of the pool.

Four facts about the scripts shape the model:
- The scripts have no build-number comparator and no per-version
  deduplication. Releases are deduplicated by `build_id` only.
- `_extract_version` is an ordered substring search over six fixed tokens,
  not a set of numeric ranges. So build `26100` is labelled `25H2`.
- The direct downloader is not one of the detector's sources. The
  detector's other two sources are placeholders that return `[]`.
- The rate gate compares `now - last_check` with one hour. A `last_check`
  that lies in the future therefore also closes the gate.

## Model

| member | source | states |
|---|---|---|
| Releases.ExtractVersionSpec | scripts/release_detector.py:152-167 | The label is always one of 25H2, 24H2, 23H2, 22H2 or Unknown. It is Unknown exactly when none of the six tokens occurs in the title. Otherwise it is the label of the first token, in the order tried, that occurs. |
| Releases.ExtractVersionFromSpec | scripts/release_detector.py:156-167 | The same three facts, for the search started at any token position; this is the induction behind ExtractVersionSpec. |
| Releases.ExtractVersion | scripts/release_detector.py:152-167 | The label is always one of 25H2, 24H2, 23H2, 22H2 or Unknown. |
| Releases.TokenLabels | scripts/release_detector.py:154-165 | The label of each token: 26100 and 25H2 give 25H2; 25398 and 24H2 give 24H2; 23H2 and 22H2 are their own labels. |
| Releases.TokenLabelIsLabel | scripts/release_detector.py:154-165 | Every token maps to a known label other than Unknown. |
| Releases.BuildTokenWins | scripts/release_detector.py:154-162 | A title that contains 26100 is labelled 25H2, whatever H-token it also contains. |
| Releases.MakeRelease | scripts/release_detector.py:98-122 | The record carries the descriptor's uuid and title. A missing build field gives build number Unknown. The channel is insider exactly when the title contains Insider, and retail otherwise. The version is the title heuristic's label for that title. The ISO URL is the uupdump download link for the uuid with `en-us` and `professional`. The architecture is the descriptor's, the detection time is now, the language is `en-us`, and checksum and size are absent. |
| Releases.FilterDescriptors | scripts/release_detector.py:97-124 | At most one record per descriptor. Every record has a Windows 11 title and amd64 architecture, is not yet tracked, and is stamped with the detection time. |
| Releases.CheckUupdump | scripts/release_detector.py:96-131 | At most 30 records, all of them wanted. The result is empty when the response is unreadable, when `builds` is absent or a mapping, or when an inspected entry is not an object. |
| Releases.FilterIsOrdered | scripts/release_detector.py:97-124 | The kept records are an order-preserving subsequence of the records of the inspected descriptors. |
| Releases.FilterKeepsWanted | scripts/release_detector.py:102-124 | Every x64 Windows 11 descriptor that is not yet tracked yields a kept record. |
| Releases.FilterKeepsOnlyWanted | scripts/release_detector.py:102-124 | Every kept record is the record of such a descriptor. |
| Releases.FilterSelectsWanted | scripts/release_detector.py:97-124 | The result is exactly the records of the wanted descriptors, one per wanted position, in increasing position order. Duplicated wanted descriptors give one record each, as `releases.append` does. So the number of records is the number of wanted positions. |
| Releases.OnlyWindowMatters | scripts/release_detector.py:97 | Two list responses with the same first 30 entries give the same result. |
| Releases.CheckUupdumpSelects | scripts/release_detector.py:96-127 | For a list response whose inspected entries are objects, exactly min(n, 30) descriptors are inspected. The result is the records of the wanted inspected descriptors at their increasing positions: one per wanted position, and nothing else. |
| Tracking.LoadTracked | scripts/release_detector.py:55-68 | A decoded file is taken as it is. A missing or invalid file gives empty builds, no last check and a check count of 0. |
| Tracking.SaveTracked | scripts/release_detector.py:70-73 | Saving keeps the builds, sets the last check to now and adds exactly 1 to the check count. |
| Tracking.DedupById | scripts/release_detector.py:198 | The kept releases have pairwise distinct ids. |
| Tracking.DedupKeepsIds | scripts/release_detector.py:198 | Deduplication by id loses no id and invents none. |
| Tracking.DedupKeepsLast | scripts/release_detector.py:198 | Each kept release is the last candidate that carries its id. |
| Tracking.DedupKeepsFirstSeenOrder | scripts/release_detector.py:198 | Kept releases are in the order their ids first appear among the candidates, which is the dict's insertion order. |
| Tracking.DedupOfDistinctIsIdentity | scripts/release_detector.py:198 | A candidate list with distinct ids is kept as it is. |
| Tracking.DedupIsIdempotent | scripts/release_detector.py:198 | Deduplicating twice is deduplicating once. |
| Tracking.Collect | scripts/release_detector.py:186-195 | A release is collected exactly when some source returned it. A source that raised contributes nothing. |
| Tracking.CollectAppend | scripts/release_detector.py:186-195 | Collecting two runs of sources in turn concatenates their candidates, keeping source order and every copy. |
| Tracking.CollectOne | scripts/release_detector.py:189-194 | A source that returned contributes exactly its list, in order; a source that raised contributes nothing. |
| Tracking.CollectIsSourceOrder | scripts/release_detector.py:186-195 | Adding a source at the end appends its returned list to the candidates, so a later source's release comes after every earlier one. |
| Tracking.RecordAllRecords | scripts/release_detector.py:200-202 | Recording releases with distinct ids adds exactly their ids. Each release is stored under its own id, and every other entry is unchanged. |
| Tracking.RunCycle | scripts/release_detector.py:179-207 | A gated cycle (not forced, last check less than an hour ago) returns nothing and leaves the state as it was. Any other cycle returns releases with distinct ids and records each under its id. It sets the last check to now and adds exactly 1 to the check count, even when it finds nothing. |
| Tracking.CycleReportsLastPerId | scripts/release_detector.py:189-207 | A completed cycle reports one release per candidate id: the last candidate with that id, in first-seen order. |
| Tracking.CycleRemovesNothing | scripts/release_detector.py:200-202 | No tracked build is removed. Every build the cycle does not report keeps its entry. |
| Tracking.CollectSources | scripts/release_detector.py:49-53 | With the two placeholder sources, the candidates are exactly the listing filter's records. |
| Tracking.DetectReportsOnlyUntracked | scripts/release_detector.py:106-108 | Nothing a cycle over the detector's three sources reports was tracked before the cycle. |
| Tracking.DetectNewReleases | scripts/release_detector.py:169-207 | A gated call returns nothing and changes nothing. Any other call reports the listing filter's records deduplicated by id, none of them tracked before. It records each under its id, keeps every other entry, sets the last check to now and adds 1 to the check count. |
| Tracking.CooldownAfterCycle | scripts/release_detector.py:179-184 | After a completed cycle, an unforced cycle within the next hour reports nothing and changes nothing. |
| Tracking.NothingWantedNothingFound | scripts/release_detector.py:102-108 | The filter keeps nothing when no descriptor is wanted. |
| Tracking.FirstCycleTracksWindow | scripts/release_detector.py:97-108 | For a list response whose inspected entries are all objects, every x64 Windows 11 build in the inspected window is tracked after a completed cycle. |
| Tracking.DiscardedListingTracksNothing | scripts/release_detector.py:93-131 | Any other response (unreadable, not a list, or a non-object among the inspected entries) reports nothing, and no build is newly tracked. |
| Tracking.TrackedWindowYieldsNothing | scripts/release_detector.py:106-108 | A listing whose inspected x64 Windows 11 builds are all tracked yields no records. |
| Tracking.SecondDetectionFindsNothing | scripts/release_detector.py:169-207 | Running the detector again over the same listing, forced or not, reports no release. |
| Matrix.SafeTitle | scripts/release_detector.py:231 | The sanitised title holds no space and no parenthesis, and it is no longer than the original. |
| Matrix.SafeTitleIsReplaceChain | scripts/release_detector.py:231 | The three chained replacements (space to underscore, then removing each parenthesis) equal the one-pass sanitiser. |
| Matrix.SafeTitleOfSafe | scripts/release_detector.py:231 | A title without spaces or parentheses is left unchanged. |
| Matrix.SafeTitleIsIdempotent | scripts/release_detector.py:231 | Sanitising twice is sanitising once. |
| Matrix.EditionCells | scripts/release_detector.py:223-232 | The edition loop gives one cell per edition, in order. |
| Matrix.GenerateMatrix | scripts/release_detector.py:209-234 | The matrix has exactly 6 entries per release. |
| Matrix.MatrixCell | scripts/release_detector.py:220-232 | The entry at index 6i + 2b + e belongs to release i, build type b (standard, core, nano) and edition e (1, 6). |
| Matrix.MatrixLayout | scripts/release_detector.py:220-232 | Every entry k belongs to release k/6, build type (k mod 6)/2 and edition k mod 2. So the matrix is release-major, then build type, then edition. |
| Matrix.MatrixCellsDescribeTheirRelease | scripts/release_detector.py:224-231 | Every entry copies its release's version, build number and ISO URL. Its build type is one of the three and its edition is 1 or 6. It is named Home exactly for edition 1 and Pro exactly for edition 6. It carries the sanitised title, with no space or parenthesis. |
| UserAgents.CatalogIsDistinct | scripts/microsoft_direct_downloader.py:27-38 | The catalogue has 10 pairwise distinct agents. |
| UserAgents.InitPool | scripts/microsoft_direct_downloader.py:59-62 | An empty pool is filled with a permutation of the catalogue. A non-empty pool, and the index, are left unchanged. |
| UserAgents.ConstructionEstablishesValid | scripts/microsoft_direct_downloader.py:40-62 | From the initial class state, or from a valid rotator, construction leaves a valid rotator: the pool is a permutation of the catalogue and the index lies within it. |
| UserAgents.NextUserAgent | scripts/microsoft_direct_downloader.py:64-79 | Returns the agent under the index as it stood before the call. The pool stays a permutation of itself and the index stays within it. The index advances by 1 over an unchanged pool, except on reaching the end, where it resets to 0 over the reshuffled pool. |
| UserAgents.NextKeepsShuffle | scripts/microsoft_direct_downloader.py:64-79 | Every call hands out an agent of the base list and keeps the pool a permutation of it. |
| UserAgents.NextKeepsValid | scripts/microsoft_direct_downloader.py:64-79 | Every call hands out a catalogue agent and keeps the rotator valid. |
| UserAgents.DrawsFinishRound | scripts/microsoft_direct_downloader.py:67-76 | From index i, the next len(pool) - i calls hand out the rest of the pool in order and end at index 0. |
| UserAgents.PermutationCount | scripts/microsoft_direct_downloader.py:27-38 | A permutation of a list without repeats holds each of its elements exactly once. |
| UserAgents.RoundHandsOutPool | scripts/microsoft_direct_downloader.py:64-79 | Starting at index 0, the next len(pool) calls hand out the whole pool in order and return to index 0. |
| UserAgents.RoundCoversCatalog | scripts/microsoft_direct_downloader.py:64-79 | Starting at index 0 from a valid rotator, the next len(pool) calls hand out every catalogue agent exactly once. |
| DirectDownload.GetWindows11Link | scripts/microsoft_direct_downloader.py:100-193 | The link is never the empty string. It is present exactly when an agent could be drawn and the button carried a non-empty href, and then it is that href. A link without `.iso` (compared in lower case) is warned about but still returned. One agent is drawn unless the session failed before drawing one. |
| DirectDownload.LinkAttemptKeepsRotatorValid | scripts/microsoft_direct_downloader.py:100-103 | A valid rotator stays valid across a link attempt. |
| DirectDownload.FindVersionToken | scripts/microsoft_direct_downloader.py:211 | Returns the leftmost position from the start point where two digits, H and a digit match, or nothing when there is no such position. |
| DirectDownload.ExtractUrlVersion | scripts/microsoft_direct_downloader.py:211-212 | The version is Latest exactly when the URL has no match of two digits, H and a digit. Otherwise it is the leftmost such four-character match. |
| DirectDownload.VersionIsTokenOrLatest | scripts/microsoft_direct_downloader.py:211-212 | The extracted version is Latest or itself a four-character version token. |
| DirectDownload.DigitRunEnd | scripts/microsoft_direct_downloader.py:215 | The greedy digit run: every character up to the end position is a digit, and the end is the end of the URL or a non-digit. |
| DirectDownload.FindBuildToken | scripts/microsoft_direct_downloader.py:215 | Returns the leftmost position from the start point where five digits, a dot and a digit match, or nothing. |
| DirectDownload.ExtractUrlBuild | scripts/microsoft_direct_downloader.py:215-216 | The build is Latest exactly when nothing matches. Otherwise it runs from the leftmost match to the end of the digit run after the dot. |
| DirectDownload.MatchIsBuildNumber | scripts/microsoft_direct_downloader.py:215-216 | A match start followed by a digit run reads as a build number. |
| DirectDownload.BuildIsMaximalMatch | scripts/microsoft_direct_downloader.py:215-216 | The build is Latest, or a build number (five digits, a dot, one or more digits) that occurs in the URL and is not followed by another digit. |
| DirectDownload.RecordFor | scripts/microsoft_direct_downloader.py:211-229 | The record keeps the URL and the detection time. It carries the version and build read from the URL and is titled `Windows 11 ` plus the version. Its build id is `msft-playwright-`, the lower-cased version, `-` and the date stamp. It names source microsoft_playwright, amd64, retail and en-us. |
| DirectDownload.RecordsForLink | scripts/microsoft_direct_downloader.py:209-229 | Exactly one record for a present, non-empty link, otherwise none. The record keeps the link as its ISO URL and stamps the detection time. It carries the extracted version and build and is titled with its version. Its build id is `msft-playwright-` + lower-cased version + `-` + date stamp. It names source microsoft_playwright, amd64, retail and en-us. |
| DirectDownload.LowerVersionShape | scripts/microsoft_direct_downloader.py:211-212 | The lower-cased version is `latest` exactly when the version is Latest. Otherwise it is two digits, `h` and a digit. |
| DirectDownload.BuildIdShape | scripts/microsoft_direct_downloader.py:225 | The build id is `msft-playwright-` + the lower-cased version of the URL + `-` + the date stamp. The version part can be read back out of the id, and it is `latest` or two digits, `h` and a digit. |
| DirectDownload.GetAllVersions | scripts/microsoft_direct_downloader.py:195-233 | At most one record. There is exactly one when an agent could be drawn and the button carried a non-empty href, and none otherwise. The record's ISO URL is that href, its version and build are read from it, and its build id is built from the lower-cased version and the date stamp. The record is the one built for that href, so every other field is as for a single record. The rotator is unchanged when the session failed before drawing; otherwise it is the rotator after one draw. |
| DirectDownload.AllVersionsKeepRotatorValid | scripts/microsoft_direct_downloader.py:100-103 | A valid rotator stays valid across `get_all_versions`. |
| DirectDownload.OneRecordIffLink | scripts/microsoft_direct_downloader.py:195-233 | `get_all_versions` produces one record exactly when `get_windows11_link` returned a link, and none when it returned `None`. The record carries that link, including one that drew the missing-`.iso` warning, and the rotator is the one the link attempt left. |

## Left out

- The Playwright browser session (navigation, selectors, clicks and timeouts) calls a library and a third-party page. Only its outcome is modelled: failed before drawing an agent, failed later, or the button's `href`.
- `_random_delay` and `time.sleep` are left out. They are float randomness and waiting, and they affect no result.
- The HTTP request and the JSON decoding in `_check_uupdump` are network and parsing. Their result is an input: an unreadable response, or the decoded `builds` member.
- `_check_microsoft_catalog` and `_check_github_releases` always return `[]`, and the model uses `[]` in their place.
- `create_github_issue`, `main` (argument parsing, output file) and `test_playwright_download` are formatting and glue code.
- File reading and writing, `datetime.now()` and ISO-8601 parsing are left out. Timestamps are integer seconds. The direct downloader's ISO time and `YYYYMMDD` stamp are strings the caller supplies.
- Tracking.DetectNewReleases: the model takes one clock reading, `now`, for the whole cycle. The source reads `datetime.now()` separately for the rate gate, for each record's `detected_date` and for `last_check` on save, so these times may differ slightly.
- Releases.Release: `detected_date` is an integer timestamp rather than its ISO-8601 string.
- Releases.Descriptor: every descriptor has a string `uuid`. A missing one would key by Python's `None`, and a numeric one would give an integer `build_id`. An object or list `uuid` is unhashable, so the `in` test of the tracked builds raises and the source discards the whole listing.
- Releases.Descriptor: a `title`, `arch` or `build` field that is present but is not a string is not modelled. This includes a JSON `null`, which `.get` returns as it is. A present null `build` gives `build_number = None` in the source, and the model cannot express it: an absent `build` becomes `Unknown`. A present `null` or numeric `title` makes the `'Windows 11' not in title` test raise, so the source discards the whole listing and returns `[]`; the model reads such a title as absent and only skips that descriptor.
- Text.IsDigit: `\d` and `isdigit` match only ASCII digits here, while Python also accepts other Unicode digits.
- Text.AsciiLower: `str.lower` is modelled on ASCII letters only.
- Tracking.LoadTracked: a tracking file that decodes to something other than an object with the three keys is not modelled.
- Tracking.SaveTracked: the state is not written to a file.
- Matrix.GenerateMatrix: returns the `include` list itself, without the enclosing `{'include': ...}` object.
- The debug and info logging of both scripts is left out.

=== FILE: direct_download.dfy ===
/** The direct downloader's decision logic around the browser session:
    which agent the session uses, when the extracted link is accepted, and
    the release record built from the link (version and build read out of
    the URL by two regular expressions, written here as explicit scans). */
module DirectDownload {
  import opened Wrappers
  import opened Text
  import opened UserAgents

  /** How the browser session ended. `FailedOnEntry`: starting Playwright
      raised before an agent was drawn. `Failed`: a later step timed out or
      raised. `ButtonFound`: the 64-bit download button was reached and its
      `href` attribute read (possibly absent or empty). */
  datatype SessionOutcome = FailedOnEntry | Failed | ButtonFound(href: Option<string>)

  /** The result of `get_windows11_link`, whether it logged the missing
      `.iso` warning, and the rotator afterwards. */
  datatype LinkAttempt = LinkAttempt(link: Option<string>, isoWarning: bool, rotator: Rotator)

  /** The link attempt produced a non-empty link: an agent could be drawn
      and the button carried a non-empty `href`. */
  predicate LinkFound(r: Rotator, outcome: SessionOutcome)
  {
    r.index < |r.pool| && outcome.ButtonFound? && outcome.href.Some? && outcome.href.value != ""
  }

  /** `get_windows11_link`. Inside the session an agent is drawn first; an
      index outside the pool raises, which the catch-all turns into `None`.
      A missing or empty `href` gives `None`; a link without `.iso` is only
      warned about and still returned. */
  function GetWindows11Link(r: Rotator, outcome: SessionOutcome, reshuffled: seq<string>): (a: LinkAttempt)
    requires IsShuffleOf(reshuffled, r.pool)
    ensures a.link != Some("")
    ensures a.link.Some? <==> LinkFound(r, outcome)
    ensures a.link.Some? ==> a.link == outcome.href
    ensures a.isoWarning <==> a.link.Some? && !Contains(AsciiLower(a.link.value), ".iso")
    ensures outcome.FailedOnEntry? || r.index >= |r.pool| ==> a.rotator == r
    ensures !outcome.FailedOnEntry? && r.index < |r.pool| ==> a.rotator == NextUserAgent(r, reshuffled).rotator
  {
    if outcome.FailedOnEntry? || r.index >= |r.pool| then LinkAttempt(None, false, r)
    else
      var rotator := NextUserAgent(r, reshuffled).rotator;
      match outcome
      case ButtonFound(Some(url)) =>
        if url == "" then LinkAttempt(None, false, rotator)
        else LinkAttempt(Some(url), !Contains(AsciiLower(url), ".iso"), rotator)
      case _ => LinkAttempt(None, false, rotator)
  }

  /** A session that got past its start uses exactly one agent, and a valid
      rotator stays valid. */
  lemma LinkAttemptKeepsRotatorValid(r: Rotator, outcome: SessionOutcome, reshuffled: seq<string>)
    requires Valid(r)
    requires IsShuffleOf(reshuffled, Catalog)
    ensures Valid(GetWindows11Link(r, outcome, reshuffled).rotator)
  {
    NextKeepsValid(r, reshuffled);
  }

  /** `\d{2}H\d` matches at position `i`. */
  predicate VersionTokenAt(s: string, i: int)
  {
    0 <= i && i + 4 <= |s| && IsDigit(s[i]) && IsDigit(s[i + 1]) && s[i + 2] == 'H' && IsDigit(s[i + 3])
  }

  /** The leftmost position at or after `from` where `\d{2}H\d` matches. */
  function FindVersionToken(s: string, from: nat): (p: Option<nat>)
    ensures p.None? <==> forall i | from <= i :: !VersionTokenAt(s, i)
    ensures p.Some? ==>
      from <= p.value && VersionTokenAt(s, p.value) && forall i | from <= i < p.value :: !VersionTokenAt(s, i)
    decreases |s| - from
  {
    if from + 4 > |s| then None
    else if VersionTokenAt(s, from) then Some(from)
    else FindVersionToken(s, from + 1)
  }

  /** `re.search(r'(\d{2}H\d)', url)`'s group, or `"Latest"`. */
  function ExtractUrlVersion(url: string): (v: string)
    ensures v == "Latest" <==> forall i :: !VersionTokenAt(url, i)
    ensures v != "Latest" ==> exists i: nat ::
      VersionTokenAt(url, i) && v == url[i..i + 4] && forall j | 0 <= j < i :: !VersionTokenAt(url, j)
  {
    match FindVersionToken(url, 0)
    case Some(i) => url[i..i + 4]
    case None => "Latest"
  }

  /** The extracted version is either the fallback or itself a token. */
  lemma VersionIsTokenOrLatest(url: string)
    ensures var v := ExtractUrlVersion(url);
      v == "Latest" || (|v| == 4 && VersionTokenAt(v, 0))
  {
  }

  /** `\d{5}\.\d` matches at position `i` (the start of a `\d{5}\.\d+` match). */
  predicate BuildTokenAt(s: string, i: int)
  {
    0 <= i && i + 7 <= |s| && (forall k | i <= k < i + 5 :: IsDigit(s[k])) && s[i + 5] == '.' && IsDigit(s[i + 6])
  }

  /** The end of the run of digits starting at `j`: what `\d+` consumes. */
  function DigitRunEnd(s: string, j: nat): (e: nat)
    requires j <= |s|
    ensures j <= e <= |s|
    ensures forall k | j <= k < e :: IsDigit(s[k])
    ensures e == |s| || !IsDigit(s[e])
    decreases |s| - j
  {
    if j < |s| && IsDigit(s[j]) then DigitRunEnd(s, j + 1) else j
  }

  /** The leftmost position at or after `from` where `\d{5}\.\d+` matches. */
  function FindBuildToken(s: string, from: nat): (p: Option<nat>)
    ensures p.None? <==> forall i | from <= i :: !BuildTokenAt(s, i)
    ensures p.Some? ==>
      from <= p.value && BuildTokenAt(s, p.value) && forall i | from <= i < p.value :: !BuildTokenAt(s, i)
    decreases |s| - from
  {
    if from + 7 > |s| then None
    else if BuildTokenAt(s, from) then Some(from)
    else FindBuildToken(s, from + 1)
  }

  /** `re.search(r'(\d{5}\.\d+)', url)`'s group, or `"Latest"`: the
      leftmost match, with the greedy `\d+` taking every following digit. */
  function ExtractUrlBuild(url: string): (b: string)
    ensures b == "Latest" <==> forall i :: !BuildTokenAt(url, i)
    ensures b != "Latest" ==> exists i: nat ::
      && BuildTokenAt(url, i)
      && (forall j | 0 <= j < i :: !BuildTokenAt(url, j))
      && b == url[i..DigitRunEnd(url, i + 6)]
  {
    match FindBuildToken(url, 0)
    case Some(i) => url[i..DigitRunEnd(url, i + 6)]
    case None => "Latest"
  }

  /** A build number read from a URL: five digits, a dot, then digits. */
  predicate IsBuildNumber(b: string)
  {
    |b| >= 7 && BuildTokenAt(b, 0) && forall k | 6 <= k < |b| :: IsDigit(b[k])
  }

  /** `b` occurs in `url` at `i` and is not followed by a digit. */
  predicate EndsDigitRun(url: string, i: int, b: string)
  {
    0 <= i && i + |b| <= |url| && url[i..i + |b|] == b && (i + |b| == |url| || !IsDigit(url[i + |b|]))
  }

  /** A match start followed by a digit run reads as a build number. */
  lemma MatchIsBuildNumber(url: string, i: nat, e: nat)
    requires BuildTokenAt(url, i)
    requires i + 7 <= e <= |url|
    requires forall k | i + 6 <= k < e :: IsDigit(url[k])
    ensures IsBuildNumber(url[i..e])
  {
    var b := url[i..e];
    assert forall k | 0 <= k < |b| :: b[k] == url[i + k];
  }

  /** The extracted build is the fallback or a build number, and its digit
      run is maximal: the URL does not continue with another digit. */
  lemma BuildIsMaximalMatch(url: string)
    ensures var b := ExtractUrlBuild(url);
      b == "Latest" || (IsBuildNumber(b) && exists i :: EndsDigitRun(url, i, b))
  {
    var b := ExtractUrlBuild(url);
    if b != "Latest" {
      var i: nat :| BuildTokenAt(url, i) && b == url[i..DigitRunEnd(url, i + 6)];
      MatchIsBuildNumber(url, i, DigitRunEnd(url, i + 6));
      assert EndsDigitRun(url, i, b);
    }
  }

  /** One entry of `get_all_versions`' result. */
  datatype VersionRecord = VersionRecord(
    version: string,
    title: string,
    isoUrl: string,
    source: string,
    detectedDate: string,
    buildNumber: string,
    buildId: string,
    architecture: string,
    channel: string,
    language: string)

  /** The build id of a record: the fixed prefix, the lower-cased version,
      `-` and the date stamp. */
  function BuildIdFor(version: string, dateStamp: string): string
  {
    "msft-playwright-" + AsciiLower(version) + "-" + dateStamp
  }

  /** The record for a link; `detectedAt` is the ISO timestamp and
      `dateStamp` the `YYYYMMDD` date, both read from the clock. */
  function RecordFor(url: string, detectedAt: string, dateStamp: string): (rec: VersionRecord)
    ensures rec.isoUrl == url && rec.detectedDate == detectedAt
    ensures rec.version == ExtractUrlVersion(url) && rec.buildNumber == ExtractUrlBuild(url)
    ensures rec.title == "Windows 11 " + rec.version
    ensures rec.buildId == BuildIdFor(rec.version, dateStamp)
    ensures rec.source == "microsoft_playwright"
    ensures rec.architecture == "amd64" && rec.channel == "retail" && rec.language == "en-us"
  {
    var version := ExtractUrlVersion(url);
    VersionRecord(
      version, "Windows 11 " + version, url, "microsoft_playwright", detectedAt,
      ExtractUrlBuild(url), BuildIdFor(version, dateStamp),
      "amd64", "retail", "en-us")
  }

  /** The records `get_all_versions` builds from a link: one for a
      non-empty link, none otherwise. */
  function RecordsForLink(link: Option<string>, detectedAt: string, dateStamp: string): (recs: seq<VersionRecord>)
    ensures |recs| == 1 <==> link.Some? && link.value != ""
    ensures |recs| <= 1
    ensures forall k | 0 <= k < |recs| ::
      && recs[k].isoUrl == link.value
      && recs[k].title == "Windows 11 " + recs[k].version
      && recs[k].version == ExtractUrlVersion(link.value)
      && recs[k].buildNumber == ExtractUrlBuild(link.value)
      && recs[k].buildId == BuildIdFor(recs[k].version, dateStamp)
      && recs[k].detectedDate == detectedAt
      && recs[k].source == "microsoft_playwright"
      && recs[k].architecture == "amd64" && recs[k].channel == "retail" && recs[k].language == "en-us"
  {
    match link
    case Some(url) => if url == "" then [] else [RecordFor(url, detectedAt, dateStamp)]
    case None => []
  }

  /** `lower` is the lower-cased form of the URL's version: `latest`
      exactly when the version is `Latest`, otherwise two digits, `h` and a
      digit. */
  predicate LowerVersionOf(url: string, lower: string)
  {
    && (lower == "latest" <==> ExtractUrlVersion(url) == "Latest")
    && (lower == "latest" || (|lower| == 4 && IsDigit(lower[0]) && IsDigit(lower[1]) && lower[2] == 'h' && IsDigit(lower[3])))
  }

  /** The lower-cased version is `latest` or a token with a lower-case `h`. */
  lemma LowerVersionShape(url: string)
    ensures LowerVersionOf(url, AsciiLower(ExtractUrlVersion(url)))
  {
    var v := ExtractUrlVersion(url);
    VersionIsTokenOrLatest(url);
    var lower := AsciiLower(v);
    if v == "Latest" {
      assert lower == "latest";
    }
  }

  /** The build id is `msft-playwright-`, the lower-cased version of the
      URL, `-` and the date stamp; the version part can be read back out of
      the id, and it is `latest` or two digits, `h` and a digit. */
  lemma BuildIdShape(url: string, detectedAt: string, dateStamp: string)
    ensures var rec := RecordFor(url, detectedAt, dateStamp);
      var lower := AsciiLower(ExtractUrlVersion(url));
      && rec.buildId == "msft-playwright-" + lower + "-" + dateStamp
      && |rec.buildId| == 17 + |lower| + |dateStamp|
      && rec.buildId[16..|rec.buildId| - |dateStamp| - 1] == lower
      && LowerVersionOf(url, lower)
  {
    var lower := AsciiLower(ExtractUrlVersion(url));
    LowerVersionShape(url);
    var id := "msft-playwright-" + lower + "-" + dateStamp;
    assert |"msft-playwright-"| == 16;
    assert id[16..|id| - |dateStamp| - 1] == lower;
  }

  /** What `get_all_versions` returns, with the rotator afterwards. */
  datatype Versions = Versions(records: seq<VersionRecord>, rotator: Rotator)

  /** `get_all_versions`: one browser session, then the record for its link. */
  function GetAllVersions(r: Rotator, outcome: SessionOutcome, reshuffled: seq<string>,
                          detectedAt: string, dateStamp: string): (vs: Versions)
    requires IsShuffleOf(reshuffled, r.pool)
    ensures |vs.records| <= 1
    ensures |vs.records| == 1 <==> LinkFound(r, outcome)
    ensures |vs.records| == 1 ==>
      && vs.records[0].isoUrl == outcome.href.value
      && vs.records[0].version == ExtractUrlVersion(outcome.href.value)
      && vs.records[0].buildNumber == ExtractUrlBuild(outcome.href.value)
      && vs.records[0].buildId == BuildIdFor(vs.records[0].version, dateStamp)
      && vs.records[0] == RecordFor(outcome.href.value, detectedAt, dateStamp)
    ensures outcome.FailedOnEntry? || r.index >= |r.pool| ==> vs.rotator == r
    ensures !outcome.FailedOnEntry? && r.index < |r.pool| ==> vs.rotator == NextUserAgent(r, reshuffled).rotator
  {
    var attempt := GetWindows11Link(r, outcome, reshuffled);
    Versions(RecordsForLink(attempt.link, detectedAt, dateStamp), attempt.rotator)
  }

  /** A valid rotator stays valid across `get_all_versions`. */
  lemma AllVersionsKeepRotatorValid(r: Rotator, outcome: SessionOutcome, reshuffled: seq<string>,
                                    detectedAt: string, dateStamp: string)
    requires Valid(r)
    requires IsShuffleOf(reshuffled, Catalog)
    ensures Valid(GetAllVersions(r, outcome, reshuffled, detectedAt, dateStamp).rotator)
  {
    LinkAttemptKeepsRotatorValid(r, outcome, reshuffled);
  }

  /** The records follow the link attempt: one record exactly when
      `get_windows11_link` returned a link, carrying that link, even when the
      link drew the missing-`.iso` warning. */
  lemma OneRecordIffLink(r: Rotator, outcome: SessionOutcome, reshuffled: seq<string>,
                         detectedAt: string, dateStamp: string)
    requires IsShuffleOf(reshuffled, r.pool)
    ensures var a := GetWindows11Link(r, outcome, reshuffled);
      var vs := GetAllVersions(r, outcome, reshuffled, detectedAt, dateStamp);
      && (|vs.records| == 1 <==> a.link.Some?)
      && (|vs.records| == 0 <==> a.link.None?)
      && (a.link.Some? ==> vs.records[0].isoUrl == a.link.value)
      && (a.isoWarning ==> |vs.records| == 1)
      && vs.rotator == a.rotator
  {
  }
}

=== FILE: matrix.dfy ===
/** Build-matrix expansion (`generate_matrix`): each release becomes one
    entry per build type and edition, release-major. */
module Matrix {
  import opened Text
  import opened Releases

  /** The build types, in the order the matrix lists them. */
  const BuildTypes: seq<string> := ["standard", "core", "nano"]

  /** The edition numbers, in order: 1 is Home, 6 is Pro. */
  const Editions: seq<int> := [1, 6]

  /** One matrix cell (an element of the matrix's `include` list). */
  datatype MatrixEntry = MatrixEntry(
    version: string,
    build: string,
    isoUrl: string,
    buildType: string,
    edition: int,
    editionName: string,
    title: string)

  function EditionName(edition: int): string
  {
    if edition == 1 then "Home" else "Pro"
  }

  /** What a single title character becomes. */
  function SafePiece(c: char): string
  {
    if c == ' ' then "_" else if c == '(' || c == ')' then "" else [c]
  }

  /** The sanitised title, one character at a time: spaces become `_`
      and parentheses are dropped. */
  function SafeTitle(title: string): (r: string)
    ensures ' ' !in r && '(' !in r && ')' !in r
    ensures |r| <= |title|
  {
    if |title| == 0 then "" else SafePiece(title[0]) + SafeTitle(title[1..])
  }

  /** The source's chain of replacements: spaces to `_`, then `(` removed,
      then `)` removed. */
  function ReplaceChain(title: string): string
  {
    RemoveChar(RemoveChar(ReplaceChar(title, ' ', '_'), '('), ')')
  }

  /** The three chained replacements agree with the one-pass definition. */
  lemma {:induction false} SafeTitleIsReplaceChain(title: string)
    ensures ReplaceChain(title) == SafeTitle(title)
  {
    if |title| > 0 {
      SafeTitleIsReplaceChain(title[1..]);
      var c := title[0];
      var replaced := ReplaceChar(title, ' ', '_');
      var c' := if c == ' ' then '_' else c;
      assert replaced == [c'] + ReplaceChar(title[1..], ' ', '_');
      var rest := ReplaceChar(title[1..], ' ', '_');
      assert ([c'] + rest)[0] == c' && ([c'] + rest)[1..] == rest;
      var once := RemoveChar(replaced, '(');
      var p1 := if c' == '(' then "" else [c'];
      assert once == p1 + RemoveChar(rest, '(');
      var twice := RemoveChar(once, ')');
      RemoveCharAppend(p1, RemoveChar(rest, '('), ')');
      assert twice == RemoveChar(p1, ')') + RemoveChar(RemoveChar(rest, '('), ')');
      if p1 != "" {
        assert p1[1..] == "";
      }
      assert RemoveChar(p1, ')') == SafePiece(c);
    }
  }

  /** Character removal distributes over concatenation. */
  lemma {:induction false} RemoveCharAppend(a: string, b: string, c: char)
    ensures RemoveChar(a + b, c) == RemoveChar(a, c) + RemoveChar(b, c)
  {
    if |a| == 0 {
      assert a + b == b;
    } else {
      assert (a + b)[0] == a[0] && (a + b)[1..] == a[1..] + b;
      RemoveCharAppend(a[1..], b, c);
    }
  }

  /** A title that is already safe is left as it is. */
  lemma {:induction false} SafeTitleOfSafe(title: string)
    requires ' ' !in title && '(' !in title && ')' !in title
    ensures SafeTitle(title) == title
  {
    if |title| > 0 {
      assert title[0] in title;
      assert forall c | c in title[1..] :: c in title;
      SafeTitleOfSafe(title[1..]);
    }
  }

  /** Sanitising twice is sanitising once. */
  lemma SafeTitleIsIdempotent(title: string)
    ensures SafeTitle(SafeTitle(title)) == SafeTitle(title)
  {
    SafeTitleOfSafe(SafeTitle(title));
  }

  /** The matrix cell for one release, build type and edition. */
  function Entry(r: Release, buildType: string, edition: int): MatrixEntry
  {
    MatrixEntry(r.version, r.buildNumber, r.isoUrl, buildType, edition, EditionName(edition), SafeTitle(r.title))
  }

  /** The inner loop: one cell per edition, in order. */
  function EditionCells(r: Release, buildType: string, editions: seq<int>): (cells: seq<MatrixEntry>)
    ensures |cells| == |editions|
    ensures forall e | 0 <= e < |editions| :: cells[e] == Entry(r, buildType, editions[e])
  {
    if |editions| == 0 then []
    else [Entry(r, buildType, editions[0])] + EditionCells(r, buildType, editions[1..])
  }

  /** The middle loop: the edition cells of each build type, in order. */
  function BuildTypeCells(r: Release, buildTypes: seq<string>): (cells: seq<MatrixEntry>)
    ensures |cells| == 2 * |buildTypes|
  {
    if |buildTypes| == 0 then []
    else EditionCells(r, buildTypes[0], Editions) + BuildTypeCells(r, buildTypes[1..])
  }

  /** Cell `2b + e` of a release's cells has build type `b` and edition `e`. */
  lemma {:induction false} BuildTypeCell(r: Release, buildTypes: seq<string>, b: int, e: int)
    requires 0 <= b < |buildTypes| && 0 <= e < |Editions|
    ensures BuildTypeCells(r, buildTypes)[2 * b + e] == Entry(r, buildTypes[b], Editions[e])
  {
    var head := EditionCells(r, buildTypes[0], Editions);
    var tail := BuildTypeCells(r, buildTypes[1..]);
    assert BuildTypeCells(r, buildTypes) == head + tail;
    if b > 0 {
      BuildTypeCell(r, buildTypes[1..], b - 1, e);
      assert buildTypes[1..][b - 1] == buildTypes[b];
      assert (head + tail)[2 * b + e] == tail[2 * (b - 1) + e];
    }
  }

  /** The six cells of one release. */
  function ReleaseCells(r: Release): (cells: seq<MatrixEntry>)
    ensures |cells| == 6
  {
    BuildTypeCells(r, BuildTypes)
  }

  /** `generate_matrix`: the cells of each release, in order. */
  function GenerateMatrix(releases: seq<Release>): (m: seq<MatrixEntry>)
    ensures |m| == 6 * |releases|
  {
    if |releases| == 0 then []
    else ReleaseCells(releases[0]) + GenerateMatrix(releases[1..])
  }

  /** Cells `6i` to `6i + 5` of the matrix are the cells of release `i`,
      by induction on the releases before it. */
  lemma {:induction false} MatrixBlock(releases: seq<Release>, i: int, j: int)
    requires 0 <= i < |releases| && 0 <= j < 6
    ensures GenerateMatrix(releases)[6 * i + j] == ReleaseCells(releases[i])[j]
  {
    var head := ReleaseCells(releases[0]);
    var tail := GenerateMatrix(releases[1..]);
    assert GenerateMatrix(releases) == head + tail;
    if i > 0 {
      MatrixBlock(releases[1..], i - 1, j);
      assert releases[1..][i - 1] == releases[i];
      assert (head + tail)[6 * i + j] == tail[6 * (i - 1) + j];
    }
  }

  /** Cell `6i + 2b + e` is release `i` with build type `b` and edition `e`. */
  lemma MatrixCell(releases: seq<Release>, i: int, b: int, e: int)
    requires 0 <= i < |releases| && 0 <= b < |BuildTypes| && 0 <= e < |Editions|
    ensures GenerateMatrix(releases)[6 * i + 2 * b + e] == Entry(releases[i], BuildTypes[b], Editions[e])
  {
    var j := 2 * b + e;
    var m := GenerateMatrix(releases);
    var cells := ReleaseCells(releases[i]);
    MatrixBlock(releases, i, j);
    BuildTypeCell(releases[i], BuildTypes, b, e);
    assert m[6 * i + j] == cells[j];
  }

  /** Euclidean division by 2 is determined by quotient and remainder. */
  lemma DivModTwo(k: int, q: int, r: int)
    requires k == 2 * q + r && 0 <= r < 2
    ensures k / 2 == q && k % 2 == r
  {
  }

  /** Each index splits into release, build type and edition. */
  lemma SplitIndex(k: int) returns (i: int, b: int, e: int)
    requires 0 <= k
    ensures k == 6 * i + 2 * b + e
    ensures 0 <= i && 0 <= b < 3 && 0 <= e < 2
    ensures i == k / 6 && b == k % 6 / 2 && e == k % 2
  {
    i := k / 6;
    var r := k % 6;
    b := if r < 2 then 0 else if r < 4 then 1 else 2;
    e := r - 2 * b;
    DivModTwo(r, b, e);
    DivModTwo(k, 3 * i + b, e);
  }

  /** The cell for release `r`, build type `b` and edition `e` copies the
      release's fields and names its build type and edition. */
  lemma EntryDescribesRelease(r: Release, b: int, e: int)
    requires 0 <= b < |BuildTypes| && 0 <= e < |Editions|
    ensures CellDescribes(Entry(r, BuildTypes[b], Editions[e]), r)
  {
  }

  /** Cell `k` of the matrix, named by its index alone. */
  lemma MatrixCellAt(releases: seq<Release>, k: int)
    requires 0 <= k < 6 * |releases|
    ensures GenerateMatrix(releases)[k] == Entry(releases[k / 6], BuildTypes[k % 6 / 2], Editions[k % 2])
  {
    var i, b, e := SplitIndex(k);
    MatrixCell(releases, i, b, e);
  }

  /** The matrix is release-major, then build type, then edition: cell
      `6i + 2b + e` is release `i` with build type `b` and edition `e`. */
  lemma MatrixLayout(releases: seq<Release>)
    ensures var m := GenerateMatrix(releases);
      forall k | 0 <= k < |m| :: m[k] == Entry(releases[k / 6], BuildTypes[k % 6 / 2], Editions[k % 2])
  {
    forall k | 0 <= k < 6 * |releases|
      ensures GenerateMatrix(releases)[k] == Entry(releases[k / 6], BuildTypes[k % 6 / 2], Editions[k % 2])
    {
      MatrixCellAt(releases, k);
    }
  }

  /** What a cell promises about the release it was built from. */
  ghost predicate CellDescribes(c: MatrixEntry, r: Release)
  {
    && c.version == r.version && c.build == r.buildNumber && c.isoUrl == r.isoUrl
    && c.buildType in {"standard", "core", "nano"}
    && c.edition in {1, 6}
    && (c.editionName == "Home" <==> c.edition == 1)
    && (c.editionName == "Pro" <==> c.edition == 6)
    && c.title == SafeTitle(r.title)
    && ' ' !in c.title && '(' !in c.title && ')' !in c.title
  }

  /** Every cell copies its release's version, build number and URL, names
      its edition Home exactly when it is edition 1, and carries the
      sanitised title, with no space and no parenthesis. */
  lemma MatrixCellsDescribeTheirRelease(releases: seq<Release>)
    ensures var m := GenerateMatrix(releases);
      forall k | 0 <= k < |m| :: CellDescribes(m[k], releases[k / 6])
  {
    forall k | 0 <= k < 6 * |releases|
      ensures CellDescribes(GenerateMatrix(releases)[k], releases[k / 6])
    {
      MatrixCellAt(releases, k);
      EntryDescribesRelease(releases[k / 6], k % 6 / 2, k % 2);
    }
  }
}

=== FILE: releases.dfy ===
/** Release records, the title-to-version heuristic and the build-listing
    filter of the release detector (scripts/release_detector.py). */
module Releases {
  import opened Wrappers
  import opened Text

  /** One detected release (`WindowsRelease`). `detectedDate` is a timestamp
      in seconds; the source stores it as an ISO-8601 string. */
  datatype Release = Release(
    buildId: string,
    buildNumber: string,
    version: string,
    title: string,
    isoUrl: string,
    detectedDate: int,
    architecture: string,
    channel: string,
    language: string,
    checksumSha256: Option<string>,
    sizeBytes: Option<int>)

  // ---------------------------------------------------------------------
  // Title-to-version heuristic (`_extract_version`)
  // ---------------------------------------------------------------------

  /** The tokens looked for in a title, in the order they are tried. */
  const VersionTokens: seq<string> := ["26100", "25398", "24H2", "25H2", "23H2", "22H2"]

  /** Every label the heuristic can produce. */
  const VersionLabels: set<string> := {"25H2", "24H2", "23H2", "22H2", "Unknown"}

  /** A matched token's label: an all-digit token is a build number mapped
      to a release name by its value, any other token is its own label. */
  function TokenLabel(token: string): string
  {
    if IsAllDigits(token) then
      if DecimalValue(token) >= 26000 then "25H2"
      else if DecimalValue(token) >= 24000 then "24H2"
      else token
    else token
  }

  /** Each token's label, and in particular that build 26100 maps to 25H2. */
  lemma TokenLabels()
    ensures TokenLabel(VersionTokens[0]) == "25H2"
    ensures TokenLabel(VersionTokens[1]) == "24H2"
    ensures TokenLabel(VersionTokens[2]) == "24H2"
    ensures TokenLabel(VersionTokens[3]) == "25H2"
    ensures TokenLabel(VersionTokens[4]) == "23H2"
    ensures TokenLabel(VersionTokens[5]) == "22H2"
  {
    var t0 := VersionTokens[0];
    assert DecimalValue("2") == 2 by { assert "2"[..0] == ""; }
    assert DecimalValue("26") == 26 by { assert "26"[..1] == "2"; }
    assert DecimalValue("261") == 261 by { assert "261"[..2] == "26"; }
    assert DecimalValue("2610") == 2610 by { assert "2610"[..3] == "261"; }
    assert DecimalValue(t0) == 26100 by { assert t0[..4] == "2610"; }
    var t1 := VersionTokens[1];
    assert DecimalValue("25") == 25 by { assert "25"[..1] == "2"; }
    assert DecimalValue("253") == 253 by { assert "253"[..2] == "25"; }
    assert DecimalValue("2539") == 2539 by { assert "2539"[..3] == "253"; }
    assert DecimalValue(t1) == 25398 by { assert t1[..4] == "2539"; }
    assert !IsDigit(VersionTokens[2][2]) && !IsDigit(VersionTokens[3][2]);
    assert !IsDigit(VersionTokens[4][2]) && !IsDigit(VersionTokens[5][2]);
  }

  /** Every token's label is a known release name. */
  lemma TokenLabelIsLabel(k: nat)
    requires k < |VersionTokens|
    ensures TokenLabel(VersionTokens[k]) in VersionLabels && TokenLabel(VersionTokens[k]) != "Unknown"
  {
    TokenLabels();
  }

  /** Token `j` is the first of the tokens from position `k` on that occurs in the title. */
  ghost predicate FirstTokenFrom(title: string, k: nat, j: nat)
  {
    k <= j < |VersionTokens|
    && Contains(title, VersionTokens[j])
    && forall i | k <= i < j :: !Contains(title, VersionTokens[i])
  }

  /** The ordered search from token `k` on; the first token found wins. */
  function ExtractVersionFrom(title: string, k: nat): string
    requires k <= |VersionTokens|
    decreases |VersionTokens| - k
  {
    if k == |VersionTokens| then "Unknown"
    else if Contains(title, VersionTokens[k]) then TokenLabel(VersionTokens[k])
    else ExtractVersionFrom(title, k + 1)
  }

  /** What the search from token `k` on finds: a label, "Unknown" exactly
      when none of those tokens occurs, and otherwise the label of the first
      one that does. */
  lemma {:induction false} ExtractVersionFromSpec(title: string, k: nat)
    requires k <= |VersionTokens|
    decreases |VersionTokens| - k
    ensures var r := ExtractVersionFrom(title, k);
      && r in VersionLabels
      && (r == "Unknown" <==> forall i | k <= i < |VersionTokens| :: !Contains(title, VersionTokens[i]))
      && (r != "Unknown" ==> exists j: nat :: FirstTokenFrom(title, k, j) && r == TokenLabel(VersionTokens[j]))
  {
    if k < |VersionTokens| {
      if Contains(title, VersionTokens[k]) {
        TokenLabelIsLabel(k);
        assert FirstTokenFrom(title, k, k);
      } else {
        ExtractVersionFromSpec(title, k + 1);
        var r := ExtractVersionFrom(title, k + 1);
        if r != "Unknown" {
          var j: nat :| FirstTokenFrom(title, k + 1, j) && r == TokenLabel(VersionTokens[j]);
          assert FirstTokenFrom(title, k, j);
        }
      }
    }
  }

  /** `_extract_version`: the label of the first token, in the order of
      `VersionTokens`, that occurs in the title, or "Unknown". */
  function ExtractVersion(title: string): (r: string)
    ensures r in VersionLabels
  {
    ExtractVersionFromSpec(title, 0);
    ExtractVersionFrom(title, 0)
  }

  /** The heuristic always yields a known label; it yields "Unknown"
      exactly when no token occurs in the title, and otherwise the label of
      the first token (in the order tried) that occurs. */
  lemma ExtractVersionSpec(title: string)
    ensures var r := ExtractVersion(title);
      && r in VersionLabels
      && (r == "Unknown" <==> forall i | 0 <= i < |VersionTokens| :: !Contains(title, VersionTokens[i]))
      && (r != "Unknown" ==> exists j: nat :: FirstTokenFrom(title, 0, j) && r == TokenLabel(VersionTokens[j]))
  {
    ExtractVersionFromSpec(title, 0);
  }

  /** A title naming build 26100 is labelled 25H2, whatever else it names:
      "26100" is tried before every H-token. */
  lemma BuildTokenWins(title: string)
    requires Contains(title, "26100")
    ensures ExtractVersion(title) == "25H2"
  {
    assert VersionTokens[0] == "26100";
    TokenLabels();
  }

  // ---------------------------------------------------------------------
  // Build-listing filter (`_check_uupdump`, without the HTTP request)
  // ---------------------------------------------------------------------

  /** One build descriptor of the listing; absent fields are `None`. */
  datatype Descriptor = Descriptor(uuid: string, title: Option<string>, arch: Option<string>, build: Option<string>)

  /** An element of the `builds` list: a JSON object, or anything else
      (on which `.get` raises). */
  datatype BuildEntry = Object(descriptor: Descriptor) | NonObject

  /** The `builds` member of the decoded response: absent (the `[]`
      default), a list, or a keyed mapping (which cannot be sliced). */
  datatype BuildsField = Absent | AsList(entries: seq<BuildEntry>) | AsMapping(byKey: map<string, BuildEntry>)

  /** The outcome of the HTTP request and JSON decoding. `Unreadable`
      covers every outcome that ends in the caught exception before any
      descriptor is read: transport errors, error statuses, bodies that do
      not decode, a `response` that is not an object, and a `builds` member
      that is `null` or a number (slicing it raises) or a string (`.get`
      on its first character raises; an empty string has no entries and
      gives `[]` without an exception). */
  datatype ListingResponse = Unreadable | Listing(builds: BuildsField)

  /** How many descriptors of the listing are inspected. */
  const ListingWindow := 30

  /** The title and architecture test: an x64 Windows 11 build. */
  predicate IsWindows11Amd64(d: Descriptor)
  {
    Contains(d.title.GetOr(""), "Windows 11") && d.arch.GetOr("") == "amd64"
  }

  /** A descriptor that becomes a release: x64 Windows 11, not yet tracked. */
  predicate Wanted(d: Descriptor, tracked: set<string>)
  {
    IsWindows11Amd64(d) && d.uuid !in tracked
  }

  /** The uupdump download link for a build: English, Professional. */
  function IsoUrlFor(buildId: string): string
  {
    "https://uupdump.net/download.php?id=" + buildId + "&pack=en-us&edition=professional"
  }

  function ChannelOf(title: string): string
  {
    if !Contains(title, "Insider") then "retail" else "insider"
  }

  /** A record the filter may keep: an x64 Windows 11 build, not yet
      tracked, stamped with the detection time. */
  predicate KeptRecord(x: Release, tracked: set<string>, now: int)
  {
    Contains(x.title, "Windows 11") && x.architecture == "amd64" && x.buildId !in tracked
    && x.detectedDate == now
  }

  /** The record built for an accepted descriptor, detected at `now`. */
  function MakeRelease(d: Descriptor, now: int): (r: Release)
    ensures r.buildId == d.uuid && r.title == d.title.GetOr("")
    ensures r.buildNumber == (if d.build.Some? then d.build.value else "Unknown")
    ensures r.channel == "insider" <==> Contains(r.title, "Insider")
    ensures r.channel in {"retail", "insider"}
    ensures r.version == ExtractVersion(r.title) && r.version in VersionLabels
    ensures r.isoUrl == IsoUrlFor(d.uuid)
    ensures r.architecture == d.arch.GetOr("") && r.detectedDate == now && r.language == "en-us"
    ensures r.checksumSha256.None? && r.sizeBytes.None?
  {
    var title := d.title.GetOr("");
    Release(
      buildId := d.uuid,
      buildNumber := d.build.GetOr("Unknown"),
      version := ExtractVersion(title),
      title := title,
      isoUrl := IsoUrlFor(d.uuid),
      detectedDate := now,
      architecture := d.arch.GetOr(""),
      channel := ChannelOf(title),
      language := "en-us",
      checksumSha256 := None,
      sizeBytes := None)
  }

  /** The loop over the inspected descriptors. */
  function FilterDescriptors(ds: seq<Descriptor>, tracked: set<string>, now: int): (r: seq<Release>)
    ensures |r| <= |ds|
    ensures forall x | x in r :: KeptRecord(x, tracked, now)
  {
    if |ds| == 0 then []
    else if Wanted(ds[0], tracked) then [MakeRelease(ds[0], now)] + FilterDescriptors(ds[1..], tracked, now)
    else FilterDescriptors(ds[1..], tracked, now)
  }

  /** The inspected prefix of a list of entries. */
  function Window(entries: seq<BuildEntry>): (w: seq<BuildEntry>)
  {
    if |entries| <= ListingWindow then entries else entries[..ListingWindow]
  }

  predicate AllObjects(entries: seq<BuildEntry>)
  {
    forall i | 0 <= i < |entries| :: entries[i].Object?
  }

  function Descriptors(entries: seq<BuildEntry>): (ds: seq<Descriptor>)
    requires AllObjects(entries)
  {
    seq(|entries|, i requires 0 <= i < |entries| && AllObjects(entries) => entries[i].descriptor)
  }

  /** `_check_uupdump` after the response is decoded. Every exception the
      source catches yields `[]`: an unreadable response, a keyed-mapping
      `builds` (slicing it raises), and a non-object among the inspected
      entries (`.get` on it raises, discarding what was collected). */
  function CheckUupdump(response: ListingResponse, tracked: set<string>, now: int): (r: seq<Release>)
    ensures |r| <= ListingWindow
    ensures response.Unreadable? ==> r == []
    ensures response.Listing? && !response.builds.AsList? ==> r == []
    ensures response.Listing? && response.builds.AsList? && !AllObjects(Window(response.builds.entries)) ==> r == []
    ensures forall x | x in r :: KeptRecord(x, tracked, now)
  {
    match response
    case Unreadable => []
    case Listing(Absent) => []
    case Listing(AsMapping(_)) => []
    case Listing(AsList(entries)) =>
      var w := Window(entries);
      if AllObjects(w) then FilterDescriptors(Descriptors(w), tracked, now) else []
  }

  /** `a` is an order-preserving subsequence of `b`. */
  ghost predicate IsSubsequence<T>(a: seq<T>, b: seq<T>)
    decreases |b|
  {
    |a| == 0 || (|b| > 0 && ((a[0] == b[0] && IsSubsequence(a[1..], b[1..])) || IsSubsequence(a, b[1..])))
  }

  /** The record every inspected descriptor would produce. */
  function Candidates(ds: seq<Descriptor>, now: int): (cs: seq<Release>)
    ensures |cs| == |ds|
  {
    if |ds| == 0 then [] else [MakeRelease(ds[0], now)] + Candidates(ds[1..], now)
  }

  /** The filter keeps its records in the order of the descriptors. */
  lemma {:induction false} FilterIsOrdered(ds: seq<Descriptor>, tracked: set<string>, now: int)
    ensures IsSubsequence(FilterDescriptors(ds, tracked, now), Candidates(ds, now))
  {
    if |ds| > 0 {
      FilterIsOrdered(ds[1..], tracked, now);
    }
  }

  /** The values of `p` strictly increase. */
  ghost predicate Increasing(p: seq<int>)
  {
    forall i, j | 0 <= i < j < |p| :: p[i] < p[j]
  }

  /** `p` lists, in increasing order, exactly the positions of the wanted
      descriptors of `ds`. */
  ghost predicate WantedPositions(ds: seq<Descriptor>, tracked: set<string>, p: seq<int>)
  {
    && Increasing(p)
    && (forall k | 0 <= k < |p| :: 0 <= p[k] < |ds| && Wanted(ds[p[k]], tracked))
    && (forall i | 0 <= i < |ds| && Wanted(ds[i], tracked) :: i in p)
  }

  /** The elements of `s` at positions `p`, in that order. */
  function Pick<T>(s: seq<T>, p: seq<int>): (t: seq<T>)
    requires forall k | 0 <= k < |p| :: 0 <= p[k] < |s|
    ensures |t| == |p|
  {
    seq(|p|, k requires 0 <= k < |p| => s[p[k]])
  }

  /** Every position moved one to the right. */
  ghost function Shift(p: seq<int>): (q: seq<int>)
    ensures |q| == |p| && forall k | 0 <= k < |p| :: q[k] == p[k] + 1
  {
    seq(|p|, k requires 0 <= k < |p| => p[k] + 1)
  }

  lemma ShiftIncreasing(p: seq<int>)
    requires Increasing(p)
    ensures Increasing(Shift(p))
  {
  }

  /** Shifted wanted positions of `ds[1..]` are wanted positions of `ds`. */
  lemma ShiftWanted(ds: seq<Descriptor>, tracked: set<string>, p: seq<int>)
    requires |ds| > 0
    requires forall k | 0 <= k < |p| :: 0 <= p[k] < |ds[1..]| && Wanted(ds[1..][p[k]], tracked)
    ensures forall k | 0 <= k < |p| :: 0 < Shift(p)[k] < |ds| && Wanted(ds[Shift(p)[k]], tracked)
  {
    forall k | 0 <= k < |p| ensures ds[Shift(p)[k]] == ds[1..][p[k]] {
    }
  }

  /** Shifting covers every wanted position of `ds` after the first. */
  lemma ShiftCovers(ds: seq<Descriptor>, tracked: set<string>, p: seq<int>)
    requires |ds| > 0
    requires forall i | 0 <= i < |ds[1..]| && Wanted(ds[1..][i], tracked) :: i in p
    ensures forall i | 0 < i < |ds| && Wanted(ds[i], tracked) :: i in Shift(p)
  {
    var q := Shift(p);
    forall i | 0 < i < |ds| && Wanted(ds[i], tracked) ensures i in q {
      assert ds[1..][i - 1] == ds[i];
      var k :| 0 <= k < |p| && p[k] == i - 1;
      assert q[k] == i;
    }
  }

  /** Shifted positions pick from `s` what the originals pick from `s[1..]`. */
  lemma ShiftPicks<T>(s: seq<T>, p: seq<int>)
    requires |s| > 0
    requires forall k | 0 <= k < |p| :: 0 <= p[k] < |s[1..]|
    ensures forall k | 0 <= k < |p| :: 0 <= Shift(p)[k] < |s|
    ensures Pick(s, Shift(p)) == Pick(s[1..], p)
  {
  }

  /** The wanted positions of `ds[1..]`, shifted by one, are the wanted
      positions of `ds` after the first, and pick the same descriptors. */
  lemma ShiftPositions(ds: seq<Descriptor>, tracked: set<string>, p: seq<int>)
    requires |ds| > 0 && WantedPositions(ds[1..], tracked, p)
    ensures Increasing(Shift(p))
    ensures forall k | 0 <= k < |p| :: 0 < Shift(p)[k] < |ds| && Wanted(ds[Shift(p)[k]], tracked)
    ensures forall i | 0 < i < |ds| && Wanted(ds[i], tracked) :: i in Shift(p)
    ensures Pick(ds, Shift(p)) == Pick(ds[1..], p)
  {
    ShiftIncreasing(p);
    ShiftWanted(ds, tracked, p);
    ShiftCovers(ds, tracked, p);
    ShiftPicks(ds, p);
  }

  /** Prepending a smaller value keeps a sequence increasing. */
  lemma IncreasingCons(x: int, q: seq<int>)
    requires Increasing(q) && forall k | 0 <= k < |q| :: x < q[k]
    ensures Increasing([x] + q)
  {
  }

  /** Picking from a prepended position picks its element first. */
  lemma PickCons<T>(s: seq<T>, x: int, q: seq<int>)
    requires 0 <= x < |s| && forall k | 0 <= k < |q| :: 0 <= q[k] < |s|
    ensures Pick(s, [x] + q) == [s[x]] + Pick(s, q)
  {
  }

  /** A wanted first descriptor joins the selection of the rest at position 0. */
  lemma SelectHead(ds: seq<Descriptor>, tracked: set<string>, p: seq<int>)
    requires |ds| > 0 && Wanted(ds[0], tracked) && WantedPositions(ds[1..], tracked, p)
    ensures WantedPositions(ds, tracked, [0] + Shift(p))
    ensures Pick(ds, [0] + Shift(p)) == [ds[0]] + Pick(ds[1..], p)
  {
    ShiftPositions(ds, tracked, p);
    var q := Shift(p);
    IncreasingCons(0, q);
    PickCons(ds, 0, q);
    var p0 := [0] + q;
    assert forall k | 0 < k < |p0| :: p0[k] == q[k - 1];
  }

  /** An unwanted first descriptor leaves the selection of the rest, shifted. */
  lemma SkipHead(ds: seq<Descriptor>, tracked: set<string>, p: seq<int>)
    requires |ds| > 0 && !Wanted(ds[0], tracked) && WantedPositions(ds[1..], tracked, p)
    ensures WantedPositions(ds, tracked, Shift(p))
    ensures Pick(ds, Shift(p)) == Pick(ds[1..], p)
  {
    ShiftPositions(ds, tracked, p);
  }

  /** The filter keeps one record per wanted descriptor, duplicates
      included, in descriptor order, and nothing else: its result is the
      records of the descriptors at the wanted positions. */
  lemma {:induction false} FilterSelectsWanted(ds: seq<Descriptor>, tracked: set<string>, now: int)
    ensures exists p :: WantedPositions(ds, tracked, p) && FilterDescriptors(ds, tracked, now) == Candidates(Pick(ds, p), now)
  {
    if |ds| == 0 {
      assert WantedPositions(ds, tracked, []);
      assert FilterDescriptors(ds, tracked, now) == Candidates(Pick(ds, []), now);
    } else {
      var rest := ds[1..];
      FilterSelectsWanted(rest, tracked, now);
      var p' :| WantedPositions(rest, tracked, p') && FilterDescriptors(rest, tracked, now) == Candidates(Pick(rest, p'), now);
      if Wanted(ds[0], tracked) {
        SelectHead(ds, tracked, p');
        var picked := [ds[0]] + Pick(rest, p');
        assert picked[1..] == Pick(rest, p');
        assert FilterDescriptors(ds, tracked, now) == Candidates(Pick(ds, [0] + Shift(p')), now);
      } else {
        SkipHead(ds, tracked, p');
        assert FilterDescriptors(ds, tracked, now) == Candidates(Pick(ds, Shift(p')), now);
      }
    }
  }

  /** Every wanted descriptor's record is kept. */
  lemma {:induction false} FilterKeepsWanted(ds: seq<Descriptor>, tracked: set<string>, now: int)
    ensures forall i | 0 <= i < |ds| && Wanted(ds[i], tracked) :: MakeRelease(ds[i], now) in FilterDescriptors(ds, tracked, now)
  {
    if |ds| > 0 {
      FilterKeepsWanted(ds[1..], tracked, now);
      forall i | 1 <= i < |ds| && Wanted(ds[i], tracked)
        ensures MakeRelease(ds[i], now) in FilterDescriptors(ds, tracked, now)
      {
        assert ds[1..][i - 1] == ds[i];
      }
    }
  }

  /** Every kept record is the record of a wanted descriptor. */
  lemma {:induction false} FilterKeepsOnlyWanted(ds: seq<Descriptor>, tracked: set<string>, now: int)
    ensures forall x | x in FilterDescriptors(ds, tracked, now) :: exists i :: 0 <= i < |ds| && Wanted(ds[i], tracked) && x == MakeRelease(ds[i], now)
  {
    if |ds| > 0 {
      FilterKeepsOnlyWanted(ds[1..], tracked, now);
      var rest := FilterDescriptors(ds[1..], tracked, now);
      forall x | x in FilterDescriptors(ds, tracked, now)
        ensures exists i :: 0 <= i < |ds| && Wanted(ds[i], tracked) && x == MakeRelease(ds[i], now)
      {
        if x in rest {
          var i :| 0 <= i < |ds[1..]| && Wanted(ds[1..][i], tracked) && x == MakeRelease(ds[1..][i], now);
          assert ds[i + 1] == ds[1..][i];
        } else {
          assert x == MakeRelease(ds[0], now);
        }
      }
    }
  }

  /** Of a list response, only the first `ListingWindow` entries matter. */
  lemma OnlyWindowMatters(entries: seq<BuildEntry>, others: seq<BuildEntry>, tracked: set<string>, now: int)
    requires Window(entries) == Window(others)
    ensures CheckUupdump(Listing(AsList(entries)), tracked, now) == CheckUupdump(Listing(AsList(others)), tracked, now)
  {
  }

  /** For a list response whose inspected entries are all objects, the
      result is the ordered selection of the wanted inspected descriptors. */
  lemma {:induction false} CheckUupdumpSelects(entries: seq<BuildEntry>, tracked: set<string>, now: int)
    requires AllObjects(Window(entries))
    ensures var r := CheckUupdump(Listing(AsList(entries)), tracked, now);
      var ds := Descriptors(Window(entries));
      && |ds| == (if |entries| < ListingWindow then |entries| else ListingWindow)
      && IsSubsequence(r, Candidates(ds, now))
      && (forall i | 0 <= i < |ds| && Wanted(ds[i], tracked) :: MakeRelease(ds[i], now) in r)
      && (forall x | x in r :: exists i :: 0 <= i < |ds| && Wanted(ds[i], tracked) && x == MakeRelease(ds[i], now))
      && (exists p :: WantedPositions(ds, tracked, p) && r == Candidates(Pick(ds, p), now))
  {
    var ds := Descriptors(Window(entries));
    FilterSelectsWanted(ds, tracked, now);
    FilterIsOrdered(ds, tracked, now);
    FilterKeepsWanted(ds, tracked, now);
    FilterKeepsOnlyWanted(ds, tracked, now);
  }
}

=== FILE: text.dfy ===
/** A value that may be missing: a JSON field that is absent, or a
    Python call that returned `None`. */
module Wrappers {

  datatype Option<+T> = None | Some(value: T) {

    /** The wrapped value, or `default` when absent (Python's `d.get(key, default)`). */
    function GetOr(default: T): T
    {
      match this
      case Some(v) => v
      case None => default
    }
  }
}

/** String helpers: Python's substring test, character replacement and
    removal, ASCII lower-casing and decimal digits. */
module Text {

  /** `t` occurs in `s` starting at position `i`. */
  predicate OccursAt(s: string, t: string, i: int)
  {
    0 <= i && i + |t| <= |s| && s[i..i + |t|] == t
  }

  /** Python's substring test `t in s`. */
  predicate Contains(s: string, t: string)
  {
    exists i | 0 <= i <= |s| - |t| :: OccursAt(s, t, i)
  }

  predicate IsDigit(c: char)
  {
    '0' <= c <= '9'
  }

  /** Python's `str.isdigit()`, restricted to ASCII digits. */
  predicate IsAllDigits(s: string)
  {
    |s| > 0 && forall i | 0 <= i < |s| :: IsDigit(s[i])
  }

  /** Python's `int(s)` for a string of ASCII digits. */
  function DecimalValue(s: string): nat
    requires forall i | 0 <= i < |s| :: IsDigit(s[i])
  {
    if |s| == 0 then 0
    else
      assert IsDigit(s[|s| - 1]);
      10 * DecimalValue(s[..|s| - 1]) + (s[|s| - 1] as int - '0' as int)
  }

  function LowerChar(c: char): char
  {
    if 'A' <= c <= 'Z' then (c as int + 32) as char else c
  }

  /** Python's `str.lower()` on ASCII text. */
  function AsciiLower(s: string): string
  {
    seq(|s|, i requires 0 <= i < |s| => LowerChar(s[i]))
  }

  /** Python's `s.replace(target, replacement)` for single characters. */
  function ReplaceChar(s: string, target: char, replacement: char): string
  {
    if |s| == 0 then ""
    else [if s[0] == target then replacement else s[0]] + ReplaceChar(s[1..], target, replacement)
  }

  /** Replacement keeps the length and changes exactly the target characters. */
  lemma {:induction false} ReplaceCharSpec(s: string, target: char, replacement: char)
    ensures var r := ReplaceChar(s, target, replacement);
      && |r| == |s|
      && forall i | 0 <= i < |s| :: r[i] == (if s[i] == target then replacement else s[i])
  {
    if |s| > 0 {
      ReplaceCharSpec(s[1..], target, replacement);
    }
  }

  /** Python's `s.replace(c, '')`: every occurrence of `c` removed. */
  function RemoveChar(s: string, c: char): string
  {
    if |s| == 0 then ""
    else (if s[0] == c then "" else [s[0]]) + RemoveChar(s[1..], c)
  }

  /** Removal leaves no `c` and keeps every other character of `s`, and
      only those. */
  lemma {:induction false} RemoveCharSpec(s: string, c: char)
    ensures var r := RemoveChar(s, c);
      && |r| <= |s|
      && c !in r
      && forall d | d != c :: d in r <==> d in s
  {
    if |s| > 0 {
      RemoveCharSpec(s[1..], c);
      var rest := RemoveChar(s[1..], c);
      assert s == [s[0]] + s[1..];
      if s[0] != c {
        assert RemoveChar(s, c) == [s[0]] + rest;
      }
    }
  }
}

=== FILE: tracking.dfy ===
/** The tracking store and one detection cycle of the release detector
    (`_load_tracked`, `_save_tracked`, `detect_new_releases`). */
module Tracking {
  import opened Wrappers
  import opened Releases

  /** The persisted aggregate: every build recorded so far, keyed by
      `build_id`, the time of the last completed cycle (seconds) and the
      number of completed cycles. */
  datatype TrackingState = TrackingState(builds: map<string, Release>, lastCheck: Option<int>, checkCount: int)

  /** What reading the tracking file yields. */
  datatype TrackingFile = NoFile | InvalidJson | Decoded(state: TrackingState)

  /** `_load_tracked`: the decoded state, or the empty default when the file
      is missing or is not valid JSON. */
  function LoadTracked(file: TrackingFile): (st: TrackingState)
    ensures file.Decoded? ==> st == file.state
    ensures !file.Decoded? ==> st.builds == map[] && st.lastCheck == None && st.checkCount == 0
  {
    match file
    case Decoded(state) => state
    case _ => TrackingState(map[], None, 0)
  }

  /** `_save_tracked`, without the file write: stamps the check time and
      counts the cycle. */
  function SaveTracked(st: TrackingState, now: int): (st': TrackingState)
    ensures st'.builds == st.builds
    ensures st'.lastCheck == Some(now)
    ensures st'.checkCount == st.checkCount + 1
  {
    st.(lastCheck := Some(now), checkCount := st.checkCount + 1)
  }

  // ---------------------------------------------------------------------
  // Identity deduplication: `{r.build_id: r for r in all_releases}`
  // ---------------------------------------------------------------------

  ghost predicate DistinctIds(rs: seq<Release>)
  {
    forall i, j | 0 <= i < j < |rs| :: rs[i].buildId != rs[j].buildId
  }

  /** Some release of `rs` carries `id`. */
  predicate HasId(rs: seq<Release>, id: string)
  {
    exists k | 0 <= k < |rs| :: rs[k].buildId == id
  }

  /** Position of the first release carrying `id`, or -1. */
  function FirstIndexOfId(rs: seq<Release>, id: string): (i: int)
    ensures -1 <= i < |rs|
    ensures 0 <= i ==> rs[i].buildId == id && forall k | 0 <= k < i :: rs[k].buildId != id
    ensures i == -1 ==> forall k | 0 <= k < |rs| :: rs[k].buildId != id
  {
    if |rs| == 0 then -1
    else if rs[0].buildId == id then 0
    else
      var i := FirstIndexOfId(rs[1..], id);
      if i == -1 then -1 else i + 1
  }

  /** Position of the last release carrying `id`, or -1. */
  function LastIndexOfId(rs: seq<Release>, id: string): (i: int)
    ensures -1 <= i < |rs|
    ensures 0 <= i ==> rs[i].buildId == id && forall k | i < k < |rs| :: rs[k].buildId != id
    ensures i == -1 ==> forall k | 0 <= k < |rs| :: rs[k].buildId != id
  {
    if |rs| == 0 then -1
    else if rs[|rs| - 1].buildId == id then |rs| - 1
    else LastIndexOfId(rs[..|rs| - 1], id)
  }

  /** A dict assignment `d[r.build_id] = r`: the entry keeps its place
      when the key is present and is appended otherwise. */
  function Upsert(acc: seq<Release>, r: Release): (out: seq<Release>)
    requires DistinctIds(acc)
    ensures DistinctIds(out)
    ensures |out| == (if HasId(acc, r.buildId) then |acc| else |acc| + 1)
    ensures forall k | 0 <= k < |acc| :: out[k] == (if acc[k].buildId == r.buildId then r else acc[k])
    ensures !HasId(acc, r.buildId) ==> out[|acc|] == r
  {
    var i := FirstIndexOfId(acc, r.buildId);
    if i == -1 then acc + [r] else acc[i := r]
  }

  /** Dict-comprehension semantics: later releases overwrite earlier ones
      with the same id, in the position where the id first appeared. */
  function DedupById(rs: seq<Release>): (out: seq<Release>)
    ensures DistinctIds(out)
    decreases |rs|
  {
    if |rs| == 0 then [] else Upsert(DedupById(rs[..|rs| - 1]), rs[|rs| - 1])
  }

  /** `a` and `b` carry the same ids. */
  ghost predicate SameIds(a: seq<Release>, b: seq<Release>)
  {
    forall id :: HasId(a, id) <==> HasId(b, id)
  }

  /** Each release of `out` is the last release of `all` carrying its id. */
  ghost predicate LastPerId(all: seq<Release>, out: seq<Release>)
  {
    forall k | 0 <= k < |out| ::
      0 <= LastIndexOfId(all, out[k].buildId) && all[LastIndexOfId(all, out[k].buildId)] == out[k]
  }

  /** Where the id of each release of `out` first appears in `all`. */
  ghost function Positions(all: seq<Release>, out: seq<Release>): seq<int>
  {
    seq(|out|, k requires 0 <= k < |out| => FirstIndexOfId(all, out[k].buildId))
  }

  /** The releases of `out` are in the order their ids first appear in `all`. */
  ghost predicate FirstSeenOrder(all: seq<Release>, out: seq<Release>)
  {
    Increasing(Positions(all, out))
  }

  /** An upsert adds the id of the upserted release and loses none. */
  lemma UpsertIds(acc: seq<Release>, x: Release)
    requires DistinctIds(acc)
    ensures forall id :: HasId(Upsert(acc, x), id) <==> HasId(acc, id) || id == x.buildId
  {
    var out := Upsert(acc, x);
    forall id | HasId(acc, id) ensures HasId(out, id) {
      var k :| 0 <= k < |acc| && acc[k].buildId == id;
      assert out[k].buildId == id;
    }
    if HasId(acc, x.buildId) {
      var k :| 0 <= k < |acc| && acc[k].buildId == x.buildId;
      assert out[k].buildId == x.buildId;
    } else {
      assert out[|acc|].buildId == x.buildId;
    }
    forall id | HasId(out, id) ensures HasId(acc, id) || id == x.buildId {
      var j :| 0 <= j < |out| && out[j].buildId == id;
      if j < |acc| && acc[j].buildId != x.buildId {
        assert acc[j].buildId == id;
      }
    }
  }

  /** An id is carried by a non-empty list iff by its last release or the
      ones before it. */
  lemma HasIdSnoc(rs: seq<Release>)
    requires |rs| > 0
    ensures forall id :: HasId(rs, id) <==> HasId(rs[..|rs| - 1], id) || id == rs[|rs| - 1].buildId
  {
    var prefix := rs[..|rs| - 1];
    forall id | HasId(rs, id) && id != rs[|rs| - 1].buildId ensures HasId(prefix, id) {
      var k :| 0 <= k < |rs| && rs[k].buildId == id;
      assert prefix[k] == rs[k];
    }
    forall id | HasId(prefix, id) ensures HasId(rs, id) {
      var k :| 0 <= k < |prefix| && prefix[k].buildId == id;
      assert rs[k] == prefix[k];
    }
  }

  /** Identity dedup loses no id and invents none. */
  lemma {:induction false} DedupKeepsIds(rs: seq<Release>)
    ensures SameIds(DedupById(rs), rs)
  {
    if |rs| > 0 {
      var prefix := rs[..|rs| - 1];
      DedupKeepsIds(prefix);
      UpsertIds(DedupById(prefix), rs[|rs| - 1]);
      HasIdSnoc(rs);
    }
  }

  /** Each kept release is the last candidate carrying its id. */
  lemma {:induction false} DedupKeepsLast(rs: seq<Release>)
    ensures LastPerId(rs, DedupById(rs))
  {
    if |rs| > 0 {
      var prefix := rs[..|rs| - 1];
      var x := rs[|rs| - 1];
      var acc := DedupById(prefix);
      var out := DedupById(rs);
      DedupKeepsLast(prefix);
      forall k | 0 <= k < |out|
        ensures 0 <= LastIndexOfId(rs, out[k].buildId) && rs[LastIndexOfId(rs, out[k].buildId)] == out[k]
      {
        if out[k].buildId != x.buildId {
          assert k < |acc| && out[k] == acc[k];
          var id := acc[k].buildId;
          var l := LastIndexOfId(prefix, id);
          assert 0 <= l && prefix[l] == acc[k];
          assert LastIndexOfId(rs, id) == l;
          assert rs[l] == prefix[l];
        } else {
          assert out[k] == x;
          assert LastIndexOfId(rs, x.buildId) == |rs| - 1;
        }
      }
    }
  }

  /** Appending does not move the first occurrence of an id already present. */
  lemma {:induction false} FirstIndexOfPrefix(prefix: seq<Release>, x: Release, id: string)
    requires HasId(prefix, id)
    ensures FirstIndexOfId(prefix + [x], id) == FirstIndexOfId(prefix, id)
  {
    var rs := prefix + [x];
    if prefix[0].buildId != id {
      assert rs[1..] == prefix[1..] + [x];
      var k :| 0 <= k < |prefix| && prefix[k].buildId == id;
      assert prefix[1..][k - 1] == prefix[k];
      FirstIndexOfPrefix(prefix[1..], x, id);
    }
  }

  /** An id absent from `prefix` first appears at the appended release. */
  lemma FirstIndexOfNew(prefix: seq<Release>, x: Release)
    requires !HasId(prefix, x.buildId)
    ensures FirstIndexOfId(prefix + [x], x.buildId) == |prefix|
  {
    var rs := prefix + [x];
    assert rs[|prefix|].buildId == x.buildId;
    forall k | 0 <= k < |prefix| ensures rs[k].buildId != x.buildId {
      assert rs[k] == prefix[k];
    }
  }

  /** Extending an increasing sequence by a larger value keeps it increasing. */
  lemma IncreasingAppend(p: seq<int>, x: int)
    requires Increasing(p)
    requires forall k | 0 <= k < |p| :: p[k] < x
    ensures Increasing(p + [x])
  {
  }

  /** Ids already among the candidates keep their first position when a
      candidate is appended. */
  lemma KeptIdsKeepFirstIndex(prefix: seq<Release>, x: Release, acc: seq<Release>)
    requires SameIds(acc, prefix)
    ensures Positions(prefix + [x], acc) == Positions(prefix, acc)
    ensures forall k | 0 <= k < |acc| :: Positions(prefix, acc)[k] < |prefix|
  {
    forall k | 0 <= k < |acc|
      ensures FirstIndexOfId(prefix + [x], acc[k].buildId) == FirstIndexOfId(prefix, acc[k].buildId) < |prefix|
    {
      assert HasId(acc, acc[k].buildId);
      FirstIndexOfPrefix(prefix, x, acc[k].buildId);
    }
  }

  /** Releases carrying the same ids, position by position, sit at the
      same first positions. */
  lemma SameIdsSamePositions(all: seq<Release>, a: seq<Release>, b: seq<Release>)
    requires |a| == |b|
    requires forall k | 0 <= k < |a| :: a[k].buildId == b[k].buildId
    ensures Positions(all, a) == Positions(all, b)
  {
  }

  /** Upserting a release whose id is present keeps every position's id. */
  lemma UpsertKnown(acc: seq<Release>, x: Release)
    requires DistinctIds(acc) && HasId(acc, x.buildId)
    ensures |Upsert(acc, x)| == |acc|
    ensures forall k | 0 <= k < |acc| :: Upsert(acc, x)[k].buildId == acc[k].buildId
  {
  }

  /** Upserting a release whose id is new appends it. */
  lemma UpsertNew(acc: seq<Release>, x: Release)
    requires DistinctIds(acc) && !HasId(acc, x.buildId)
    ensures Upsert(acc, x) == acc + [x]
  {
  }

  /** Kept releases appear in the order their ids first appear among the
      candidates (the insertion order of a Python dict). */
  lemma {:induction false} DedupKeepsFirstSeenOrder(rs: seq<Release>)
    ensures FirstSeenOrder(rs, DedupById(rs))
  {
    if |rs| > 0 {
      var prefix := rs[..|rs| - 1];
      var x := rs[|rs| - 1];
      var acc := DedupById(prefix);
      assert rs == prefix + [x];
      DedupKeepsFirstSeenOrder(prefix);
      DedupKeepsIds(prefix);
      KeptIdsKeepFirstIndex(prefix, x, acc);
      var p := Positions(rs, acc);
      if HasId(acc, x.buildId) {
        UpsertKnown(acc, x);
        SameIdsSamePositions(rs, Upsert(acc, x), acc);
      } else {
        UpsertNew(acc, x);
        FirstIndexOfNew(prefix, x);
        assert Positions(rs, acc + [x]) == p + [|prefix|];
        IncreasingAppend(p, |prefix|);
      }
    }
  }

  /** Identity dedup leaves a list with distinct ids unchanged. */
  lemma {:induction false} DedupOfDistinctIsIdentity(rs: seq<Release>)
    requires DistinctIds(rs)
    ensures DedupById(rs) == rs
  {
    if |rs| > 0 {
      var prefix := rs[..|rs| - 1];
      var x := rs[|rs| - 1];
      DedupOfDistinctIsIdentity(prefix);
      forall k | 0 <= k < |prefix| ensures prefix[k].buildId != x.buildId {
        assert prefix[k] == rs[k];
      }
      assert !HasId(prefix, x.buildId);
      assert prefix + [x] == rs;
    }
  }

  /** Identity dedup is idempotent. */
  lemma DedupIsIdempotent(rs: seq<Release>)
    ensures DedupById(DedupById(rs)) == DedupById(rs)
  {
    DedupOfDistinctIsIdentity(DedupById(rs));
  }

  // ---------------------------------------------------------------------
  // One detection cycle
  // ---------------------------------------------------------------------

  /** What calling one source gave: it raised, or it returned candidates. */
  datatype SourceOutcome = Raised | Returned(releases: seq<Release>)

  /** The candidates of every source that did not raise, in source order. */
  function Collect(outcomes: seq<SourceOutcome>): (all: seq<Release>)
    ensures forall x :: x in all <==>
      exists i :: 0 <= i < |outcomes| && outcomes[i].Returned? && x in outcomes[i].releases
  {
    if |outcomes| == 0 then []
    else
      var rest := Collect(outcomes[1..]);
      var head := if outcomes[0].Returned? then outcomes[0].releases else [];
      assert forall i | 1 <= i < |outcomes| :: outcomes[i] == outcomes[1..][i - 1];
      head + rest
  }

  /** Collecting two runs of sources one after the other concatenates their
      candidates: `extend` keeps source order and every copy. */
  lemma {:induction false} CollectAppend(o1: seq<SourceOutcome>, o2: seq<SourceOutcome>)
    ensures Collect(o1 + o2) == Collect(o1) + Collect(o2)
    decreases |o1|
  {
    if |o1| == 0 {
      assert o1 + o2 == o2;
    } else {
      var head := if o1[0].Returned? then o1[0].releases else [];
      assert (o1 + o2)[0] == o1[0];
      assert (o1 + o2)[1..] == o1[1..] + o2;
      CollectAppend(o1[1..], o2);
      calc {
        Collect(o1 + o2);
        head + Collect(o1[1..] + o2);
        head + (Collect(o1[1..]) + Collect(o2));
        (head + Collect(o1[1..])) + Collect(o2);
        Collect(o1) + Collect(o2);
      }
    }
  }

  /** A source that returned contributes its candidates as they are, in
      their order; a source that raised contributes nothing. */
  lemma CollectOne(o: SourceOutcome)
    ensures o.Returned? ==> Collect([o]) == o.releases
    ensures o.Raised? ==> Collect([o]) == []
  {
    assert [o][1..] == [];
  }

  /** The candidates are the returned lists in source order. */
  lemma {:induction false} CollectIsSourceOrder(outcomes: seq<SourceOutcome>, o: SourceOutcome)
    ensures Collect(outcomes + [o]) == Collect(outcomes) + (if o.Returned? then o.releases else [])
  {
    CollectAppend(outcomes, [o]);
    CollectOne(o);
  }

  /** Seconds within which a second cycle is skipped. */
  const RateWindow := 3600

  /** The rate gate: an unforced cycle less than an hour after the last one. */
  predicate Gated(st: TrackingState, now: int, force: bool)
  {
    !force && st.lastCheck.Some? && now - st.lastCheck.value < RateWindow
  }

  /** `tracked_data['builds'][r.build_id] = r` for each release in turn. */
  function RecordAll(builds: map<string, Release>, rs: seq<Release>): map<string, Release>
    decreases |rs|
  {
    if |rs| == 0 then builds
    else RecordAll(builds[rs[0].buildId := rs[0]], rs[1..])
  }

  /** An id is carried by a non-empty list iff by its head or its tail. */
  lemma HasIdCons(rs: seq<Release>)
    requires |rs| > 0
    ensures forall id :: HasId(rs, id) <==> id == rs[0].buildId || HasId(rs[1..], id)
  {
    forall id | HasId(rs, id) && id != rs[0].buildId ensures HasId(rs[1..], id) {
      var k :| 0 <= k < |rs| && rs[k].buildId == id;
      assert rs[1..][k - 1] == rs[k];
    }
    forall id | HasId(rs[1..], id) ensures HasId(rs, id) {
      var k :| 0 <= k < |rs[1..]| && rs[1..][k].buildId == id;
      assert rs[k + 1] == rs[1..][k];
    }
  }

  /** Recording adds exactly the ids of the releases. */
  lemma {:induction false} RecordAllKeys(builds: map<string, Release>, rs: seq<Release>)
    ensures forall id :: id in RecordAll(builds, rs) <==> id in builds || HasId(rs, id)
    decreases |rs|
  {
    if |rs| > 0 {
      RecordAllKeys(builds[rs[0].buildId := rs[0]], rs[1..]);
      HasIdCons(rs);
    }
  }

  /** Recording leaves the entry of every id no release carries. */
  lemma {:induction false} RecordAllUntouched(builds: map<string, Release>, rs: seq<Release>)
    ensures forall id | id in builds && !HasId(rs, id) ::
      id in RecordAll(builds, rs) && RecordAll(builds, rs)[id] == builds[id]
    decreases |rs|
  {
    if |rs| > 0 {
      RecordAllUntouched(builds[rs[0].buildId := rs[0]], rs[1..]);
      HasIdCons(rs);
    }
  }

  /** With distinct ids, every release ends up recorded under its id. */
  lemma {:induction false} RecordAllValues(builds: map<string, Release>, rs: seq<Release>)
    requires DistinctIds(rs)
    ensures forall k | 0 <= k < |rs| :: rs[k].buildId in RecordAll(builds, rs) && RecordAll(builds, rs)[rs[k].buildId] == rs[k]
    decreases |rs|
  {
    if |rs| > 0 {
      var rest := rs[1..];
      var b := builds[rs[0].buildId := rs[0]];
      assert forall k | 0 <= k < |rest| :: rest[k] == rs[k + 1];
      RecordAllValues(b, rest);
      RecordAllUntouched(b, rest);
      assert !HasId(rest, rs[0].buildId);
    }
  }

  /** `m` is `builds` with every release of `rs` recorded under its id. */
  ghost predicate RecordedIn(builds: map<string, Release>, rs: seq<Release>, m: map<string, Release>)
  {
    && (forall id :: id in m <==> id in builds || HasId(rs, id))
    && (forall k | 0 <= k < |rs| :: rs[k].buildId in m && m[rs[k].buildId] == rs[k])
    && (forall id | id in builds && !HasId(rs, id) :: m[id] == builds[id])
  }

  /** Recording releases with distinct ids adds them, each under its id,
      and keeps every other entry. */
  lemma RecordAllRecords(builds: map<string, Release>, rs: seq<Release>)
    requires DistinctIds(rs)
    ensures RecordedIn(builds, rs, RecordAll(builds, rs))
  {
    RecordAllKeys(builds, rs);
    RecordAllUntouched(builds, rs);
    RecordAllValues(builds, rs);
  }

  /** The result of a cycle: the releases reported new, and the state after it. */
  datatype CycleResult = CycleResult(releases: seq<Release>, state: TrackingState)

  /** One detection cycle over the outcomes of its sources. A gated cycle
      reports nothing and changes nothing; any other cycle reports one
      release per candidate id, records it, and counts itself, even when
      nothing was found. */
  function RunCycle(st: TrackingState, now: int, force: bool, outcomes: seq<SourceOutcome>): (c: CycleResult)
    ensures Gated(st, now, force) ==> c == CycleResult([], st)
    ensures !Gated(st, now, force) ==>
      && c.state.checkCount == st.checkCount + 1
      && c.state.lastCheck == Some(now)
      && DistinctIds(c.releases)
      && RecordedIn(st.builds, c.releases, c.state.builds)
  {
    if Gated(st, now, force) then CycleResult([], st)
    else
      var unique := DedupById(Collect(outcomes));
      RecordAllRecords(st.builds, unique);
      CycleResult(unique, SaveTracked(st.(builds := RecordAll(st.builds, unique)), now))
  }

  /** What a completed cycle reports: one release per candidate id, the
      last candidate with that id, in first-seen order. */
  lemma CycleReportsLastPerId(st: TrackingState, now: int, force: bool, outcomes: seq<SourceOutcome>)
    requires !Gated(st, now, force)
    ensures var c := RunCycle(st, now, force, outcomes);
      var all := Collect(outcomes);
      && DistinctIds(c.releases)
      && SameIds(c.releases, all)
      && LastPerId(all, c.releases)
      && FirstSeenOrder(all, c.releases)
  {
    var all := Collect(outcomes);
    DedupKeepsIds(all);
    DedupKeepsLast(all);
    DedupKeepsFirstSeenOrder(all);
  }

  /** A completed cycle removes nothing from the tracked builds and leaves
      untouched every build it does not report. */
  lemma CycleRemovesNothing(st: TrackingState, now: int, force: bool, outcomes: seq<SourceOutcome>)
    ensures var c := RunCycle(st, now, force, outcomes);
      forall id | id in st.builds && !HasId(c.releases, id) :: id in c.state.builds && c.state.builds[id] == st.builds[id]
  {
  }

  /** The sources of `detect_new_releases` for one cycle: the build listing,
      filtered against the builds tracked before the cycle, then the
      catalogue and GitHub sources, which are placeholders returning `[]`. */
  function Sources(st: TrackingState, now: int, listing: ListingResponse): seq<SourceOutcome>
  {
    [Returned(CheckUupdump(listing, st.builds.Keys, now)), Returned([]), Returned([])]
  }

  /** The placeholder sources add nothing: the candidates are the listing's. */
  lemma CollectSources(st: TrackingState, now: int, listing: ListingResponse)
    ensures Collect(Sources(st, now, listing)) == CheckUupdump(listing, st.builds.Keys, now)
  {
    var o := Sources(st, now, listing);
    CollectOne(o[0]);
    CollectIsSourceOrder([o[0]], o[1]);
    assert [o[0]] + [o[1]] == o[..2];
    CollectIsSourceOrder(o[..2], o[2]);
    assert o[..2] + [o[2]] == o;
  }

  /** Nothing a cycle over the detector's sources reports was tracked
      before the cycle. */
  lemma DetectReportsOnlyUntracked(st: TrackingState, now: int, force: bool, listing: ListingResponse)
    ensures var c := RunCycle(st, now, force, Sources(st, now, listing));
      forall k | 0 <= k < |c.releases| :: c.releases[k].buildId !in st.builds
  {
    var c := RunCycle(st, now, force, Sources(st, now, listing));
    var all := Collect(Sources(st, now, listing));
    if !Gated(st, now, force) {
      CollectSources(st, now, listing);
      CycleReportsLastPerId(st, now, force, Sources(st, now, listing));
      forall k | 0 <= k < |c.releases| ensures c.releases[k].buildId !in st.builds {
        assert HasId(c.releases, c.releases[k].buildId);
        var j :| 0 <= j < |all| && all[j].buildId == c.releases[k].buildId;
        assert all[j] in all;
      }
    }
  }

  /** `detect_new_releases` over the three sources. A gated call returns
      nothing and changes nothing. Any other call reports the listing's new
      records, deduplicated by id, none of them tracked before; it records
      them and counts the cycle. */
  function DetectNewReleases(st: TrackingState, now: int, force: bool, listing: ListingResponse): (c: CycleResult)
    ensures Gated(st, now, force) ==> c == CycleResult([], st)
    ensures !Gated(st, now, force) ==>
      && c.releases == DedupById(CheckUupdump(listing, st.builds.Keys, now))
      && c.state.checkCount == st.checkCount + 1
      && c.state.lastCheck == Some(now)
      && RecordedIn(st.builds, c.releases, c.state.builds)
    ensures forall k | 0 <= k < |c.releases| :: c.releases[k].buildId !in st.builds
  {
    CollectSources(st, now, listing);
    DetectReportsOnlyUntracked(st, now, force, listing);
    RunCycle(st, now, force, Sources(st, now, listing))
  }

  /** A completed cycle closes the gate for the following hour: an unforced
      cycle in that hour reports nothing and changes nothing. */
  lemma CooldownAfterCycle(st: TrackingState, now: int, force: bool, outcomes: seq<SourceOutcome>,
                           later: int, next: seq<SourceOutcome>)
    requires !Gated(st, now, force)
    requires now <= later < now + RateWindow
    ensures var c := RunCycle(st, now, force, outcomes);
      RunCycle(c.state, later, false, next) == CycleResult([], c.state)
  {
  }

  /** The filter finds nothing when no descriptor is wanted. */
  lemma {:induction false} NothingWantedNothingFound(ds: seq<Descriptor>, tracked: set<string>, now: int)
    requires forall i | 0 <= i < |ds| :: !Wanted(ds[i], tracked)
    ensures FilterDescriptors(ds, tracked, now) == []
  {
    if |ds| > 0 {
      assert forall i | 0 <= i < |ds[1..]| :: ds[1..][i] == ds[i + 1];
      NothingWantedNothingFound(ds[1..], tracked, now);
    }
  }

  /** For a list response whose inspected entries are all objects, every
      x64 Windows 11 descriptor of the inspected window is in `tracked`;
      any other response makes no demand. */
  ghost predicate WindowTracked(listing: ListingResponse, tracked: set<string>)
  {
    listing.Listing? && listing.builds.AsList? && AllObjects(Window(listing.builds.entries)) ==>
      var ds := Descriptors(Window(listing.builds.entries));
      forall i | 0 <= i < |ds| && IsWindows11Amd64(ds[i]) :: ds[i].uuid in tracked
  }

  /** For a list response whose inspected entries are all objects, a
      completed detection cycle tracks every x64 Windows 11 build of the
      inspected window. Any other response yields nothing; see
      `DiscardedListingTracksNothing`. */
  lemma FirstCycleTracksWindow(st: TrackingState, now: int, force: bool, listing: ListingResponse)
    requires !Gated(st, now, force)
    ensures WindowTracked(listing, DetectNewReleases(st, now, force, listing).state.builds.Keys)
  {
    var outcomes := Sources(st, now, listing);
    var c := RunCycle(st, now, force, outcomes);
    var all := Collect(outcomes);
    var first := CheckUupdump(listing, st.builds.Keys, now);
    CycleReportsLastPerId(st, now, force, outcomes);
    if listing.Listing? && listing.builds.AsList? && AllObjects(Window(listing.builds.entries)) {
      var entries := listing.builds.entries;
      var ds := Descriptors(Window(entries));
      CheckUupdumpSelects(entries, st.builds.Keys, now);
      forall i | 0 <= i < |ds| && IsWindows11Amd64(ds[i]) ensures ds[i].uuid in c.state.builds {
        if ds[i].uuid !in st.builds {
          var x := MakeRelease(ds[i], now);
          assert x in first;
          assert x in all;
          var j :| 0 <= j < |all| && all[j] == x;
          assert HasId(all, ds[i].uuid);
          assert HasId(c.releases, ds[i].uuid);
        }
      }
    }
  }

  /** A response the filter cannot read through (unreadable, not a list,
      or a non-object among the inspected entries) reports nothing and
      tracks no new build. */
  lemma DiscardedListingTracksNothing(st: TrackingState, now: int, force: bool, listing: ListingResponse)
    requires !(listing.Listing? && listing.builds.AsList? && AllObjects(Window(listing.builds.entries)))
    ensures var c := DetectNewReleases(st, now, force, listing);
      c.releases == [] && c.state.builds == st.builds
  {
  }

  /** A listing whose inspected builds are all tracked yields nothing. */
  lemma TrackedWindowYieldsNothing(listing: ListingResponse, tracked: set<string>, now: int)
    requires WindowTracked(listing, tracked)
    ensures CheckUupdump(listing, tracked, now) == []
  {
    if listing.Listing? && listing.builds.AsList? && AllObjects(Window(listing.builds.entries)) {
      NothingWantedNothingFound(Descriptors(Window(listing.builds.entries)), tracked, now);
    }
  }

  /** Running the detector again over the same listing finds nothing new. */
  lemma SecondDetectionFindsNothing(st: TrackingState, now: int, force: bool,
                                    listing: ListingResponse, later: int, force2: bool)
    requires !Gated(st, now, force)
    ensures var c := DetectNewReleases(st, now, force, listing);
      DetectNewReleases(c.state, later, force2, listing).releases == []
  {
    var c := DetectNewReleases(st, now, force, listing);
    FirstCycleTracksWindow(st, now, force, listing);
    TrackedWindowYieldsNothing(listing, c.state.builds.Keys, later);
    CollectSources(c.state, later, listing);
  }
}

=== FILE: user_agents.dfy ===
/** The process-wide user-agent rotator of the direct downloader: a pool
    holding a shuffled copy of a fixed catalogue, and an index walking it.
    Python's `random.shuffle` is modelled by the caller supplying the new
    order, constrained only to be a permutation. */
module UserAgents {

  /** `USER_AGENTS`: the fixed catalogue. */
  const Catalog: seq<string> := [
    "Mozilla/5.0 (Windows NT 10.0; Win64; x64) AppleWebKit/537.36 (KHTML, like Gecko) Chrome/120.0.0.0 Safari/537.36",
    "Mozilla/5.0 (Windows NT 10.0; Win64; x64) AppleWebKit/537.36 (KHTML, like Gecko) Chrome/119.0.0.0 Safari/537.36",
    "Mozilla/5.0 (Windows NT 10.0; Win64; x64; rv:121.0) Gecko/20100101 Firefox/121.0",
    "Mozilla/5.0 (Windows NT 10.0; Win64; x64; rv:120.0) Gecko/20100101 Firefox/120.0",
    "Mozilla/5.0 (Windows NT 10.0; Win64; x64) AppleWebKit/537.36 (KHTML, like Gecko) Chrome/118.0.0.0 Safari/537.36 Edg/118.0.2088.76",
    "Mozilla/5.0 (Windows NT 10.0; Win64; x64) AppleWebKit/537.36 (KHTML, like Gecko) Chrome/117.0.0.0 Safari/537.36",
    "Mozilla/5.0 (Macintosh; Intel Mac OS X 10_15_7) AppleWebKit/537.36 (KHTML, like Gecko) Chrome/120.0.0.0 Safari/537.36",
    "Mozilla/5.0 (Macintosh; Intel Mac OS X 10_15_7) AppleWebKit/605.1.15 (KHTML, like Gecko) Version/17.1 Safari/605.1.15",
    "Mozilla/5.0 (X11; Linux x86_64) AppleWebKit/537.36 (KHTML, like Gecko) Chrome/120.0.0.0 Safari/537.36",
    "Mozilla/5.0 (X11; Ubuntu; Linux x86_64; rv:121.0) Gecko/20100101 Firefox/121.0"
  ]

  /** The class-level state `_agent_pool` and `_agent_index`. */
  datatype Rotator = Rotator(pool: seq<string>, index: nat)

  /** The state before any downloader is constructed. */
  const Unstarted := Rotator([], 0)

  /** `p` is a reordering of `q`: what `random.shuffle` may produce. */
  predicate IsShuffleOf(p: seq<string>, q: seq<string>)
  {
    multiset(p) == multiset(q)
  }

  /** The rotator invariant: the pool is a permutation of the catalogue and
      the index points into it. */
  predicate Valid(r: Rotator)
  {
    IsShuffleOf(r.pool, Catalog) && r.index < |r.pool|
  }

  /** The catalogue has ten pairwise distinct agents. */
  lemma CatalogIsDistinct()
    ensures |Catalog| == 10
    ensures forall i, j | 0 <= i < j < |Catalog| :: Catalog[i] != Catalog[j]
  {
  }

  /** The constructor's pool initialisation: an empty pool is filled with a
      shuffled copy of the catalogue, a non-empty one is kept. The index is
      not touched. */
  function InitPool(r: Rotator, shuffled: seq<string>): (r': Rotator)
    requires IsShuffleOf(shuffled, Catalog)
    ensures |r.pool| == 0 ==> IsShuffleOf(r'.pool, Catalog) && r'.index == r.index
    ensures |r.pool| > 0 ==> r' == r
  {
    if |r.pool| == 0 then Rotator(shuffled, r.index) else r
  }

  /** Constructing downloaders, in any number, leaves the rotator valid. */
  lemma ConstructionEstablishesValid(r: Rotator, shuffled: seq<string>)
    requires r == Unstarted || Valid(r)
    requires IsShuffleOf(shuffled, Catalog)
    ensures Valid(InitPool(r, shuffled))
  {
    CatalogIsDistinct();
    assert |shuffled| == |multiset(shuffled)| == |multiset(Catalog)| == 10;
  }

  /** The agent handed out and the rotator after the call. */
  datatype Draw = Draw(agent: string, rotator: Rotator)

  /** `_get_next_user_agent`: hands out the agent under the index and
      advances it; on reaching the end of the pool the pool is reshuffled
      (into `reshuffled`) and the index reset to 0. */
  function NextUserAgent(r: Rotator, reshuffled: seq<string>): (d: Draw)
    requires r.index < |r.pool|
    requires IsShuffleOf(reshuffled, r.pool)
    ensures d.agent == r.pool[r.index]
    ensures IsShuffleOf(d.rotator.pool, r.pool) && d.rotator.index < |d.rotator.pool|
    ensures r.index + 1 < |r.pool| ==> d.rotator == Rotator(r.pool, r.index + 1)
    ensures r.index + 1 == |r.pool| ==> d.rotator == Rotator(reshuffled, 0)
  {
    assert |reshuffled| == |multiset(reshuffled)| == |multiset(r.pool)| == |r.pool|;
    var next := r.index + 1;
    if next >= |r.pool| then Draw(r.pool[r.index], Rotator(reshuffled, 0))
    else Draw(r.pool[r.index], Rotator(r.pool, next))
  }

  /** Every call hands out an agent of `base` and keeps the pool a
      permutation of `base`. */
  lemma NextKeepsShuffle(r: Rotator, reshuffled: seq<string>, base: seq<string>)
    requires IsShuffleOf(r.pool, base) && r.index < |r.pool|
    requires IsShuffleOf(reshuffled, base)
    ensures var d := NextUserAgent(r, reshuffled);
      d.agent in base && IsShuffleOf(d.rotator.pool, base) && d.rotator.index < |d.rotator.pool|
  {
    assert r.pool[r.index] in multiset(r.pool);
  }

  /** Every call hands out a catalogue agent and keeps the rotator valid. */
  lemma NextKeepsValid(r: Rotator, reshuffled: seq<string>)
    requires Valid(r)
    requires IsShuffleOf(reshuffled, Catalog)
    ensures var d := NextUserAgent(r, reshuffled);
      d.agent in Catalog && Valid(d.rotator)
  {
    NextKeepsShuffle(r, reshuffled, Catalog);
  }

  /** The agents and final state of `|shuffles|` consecutive calls, the
      `k`-th call reshuffling into `shuffles[k]` if it wraps. */
  datatype Draws = Draws(agents: seq<string>, rotator: Rotator)

  function DrawMany(r: Rotator, shuffles: seq<seq<string>>): (ds: Draws)
    requires r.index < |r.pool|
    requires forall k | 0 <= k < |shuffles| :: IsShuffleOf(shuffles[k], r.pool)
    ensures |ds.agents| == |shuffles|
    decreases |shuffles|
  {
    if |shuffles| == 0 then Draws([], r)
    else
      var d := NextUserAgent(r, shuffles[0]);
      ShufflesCarryOver(r.pool, d.rotator.pool, shuffles);
      var rest := DrawMany(d.rotator, shuffles[1..]);
      Draws([d.agent] + rest.agents, rest.rotator)
  }

  /** Permutations of the old pool are permutations of the new one. */
  lemma ShufflesCarryOver(pool: seq<string>, pool': seq<string>, shuffles: seq<seq<string>>)
    requires |shuffles| > 0 && IsShuffleOf(pool', pool)
    requires forall k | 0 <= k < |shuffles| :: IsShuffleOf(shuffles[k], pool)
    ensures forall k | 0 <= k < |shuffles[1..]| :: IsShuffleOf(shuffles[1..][k], pool')
  {
    forall k | 0 <= k < |shuffles[1..]| ensures IsShuffleOf(shuffles[1..][k], pool') {
      assert shuffles[1..][k] == shuffles[k + 1];
    }
  }

  /** From index `i`, the next `|pool| - i` calls hand out the rest of the
      pool in order and end on a fresh round at index 0. */
  lemma {:induction false} DrawsFinishRound(r: Rotator, shuffles: seq<seq<string>>)
    requires r.index < |r.pool|
    requires forall k | 0 <= k < |shuffles| :: IsShuffleOf(shuffles[k], r.pool)
    requires |shuffles| == |r.pool| - r.index
    ensures DrawMany(r, shuffles).agents == r.pool[r.index..]
    ensures DrawMany(r, shuffles).rotator.index == 0
    decreases |shuffles|
  {
    var d := NextUserAgent(r, shuffles[0]);
    if r.index + 1 < |r.pool| {
      DrawsFinishRound(d.rotator, shuffles[1..]);
      assert r.pool[r.index..] == [r.pool[r.index]] + r.pool[r.index + 1..];
    } else {
      assert shuffles[1..] == [];
      assert r.pool[r.index..] == [r.pool[r.index]];
    }
  }

  /** In a seq without repeats, each of its elements occurs once. */
  lemma {:induction false} DistinctOccursOnce(s: seq<string>, a: string)
    requires forall i, j | 0 <= i < j < |s| :: s[i] != s[j]
    requires a in s
    ensures multiset(s)[a] == 1
  {
    assert s == [s[0]] + s[1..];
    if s[0] == a {
      assert a !in s[1..];
    } else {
      DistinctOccursOnce(s[1..], a);
    }
  }

  /** A permutation of a seq without repeats holds each element once. */
  lemma PermutationCount(p: seq<string>, q: seq<string>)
    requires IsShuffleOf(p, q)
    requires forall i, j | 0 <= i < j < |q| :: q[i] != q[j]
    ensures |p| == |q|
    ensures forall a | a in q :: multiset(p)[a] == 1
  {
    assert |p| == |multiset(p)| == |multiset(q)| == |q|;
    forall a | a in q ensures multiset(p)[a] == 1 {
      DistinctOccursOnce(q, a);
    }
  }

  /** Starting a round at index 0, the next `|pool|` calls hand out the
      whole pool, in order. */
  lemma RoundHandsOutPool(r: Rotator, shuffles: seq<seq<string>>)
    requires r.index == 0 && 0 < |r.pool|
    requires forall k | 0 <= k < |shuffles| :: IsShuffleOf(shuffles[k], r.pool)
    requires |shuffles| == |r.pool|
    ensures DrawMany(r, shuffles).agents == r.pool
    ensures DrawMany(r, shuffles).rotator.index == 0
  {
    DrawsFinishRound(r, shuffles);
    assert r.pool[0..] == r.pool;
  }

  /** Starting a round at index 0, the next `|pool|` calls hand out every
      catalogue agent exactly once. */
  lemma RoundCoversCatalog(r: Rotator, shuffles: seq<seq<string>>)
    requires Valid(r) && r.index == 0
    requires forall k | 0 <= k < |shuffles| :: IsShuffleOf(shuffles[k], r.pool)
    requires |shuffles| == |r.pool|
    ensures var agents := DrawMany(r, shuffles).agents;
      && multiset(agents) == multiset(Catalog)
      && forall a | a in Catalog :: multiset(agents)[a] == 1
  {
    RoundHandsOutPool(r, shuffles);
    CatalogIsDistinct();
    PermutationCount(r.pool, Catalog);
  }
}
